=== FILE: README.md ===
# LocationTrackingDB in Dafny

A model of the local storage engine of the LocStream mobile app: the
`LocationTrackingDB` class of `mobile/locstream_rn/lib/db.ts`. It covers:

- the five-state initialization coordinator (`init`, `performInitialization`,
  `ensureInitialized`, `close`);
- the queue that defers data-access calls while the store is not ready, and
  its drain (`executeOperation`, `processQueuedOperations`);
- the persistent readiness record in the `metadata` table, which lets a
  restarted process adopt a schema that was already created;
- the session, location and preference tables with their inserts, updates
  and queries;
- retention cleanup and the row counts of `getStats`.

Each `await` is one atomic step, and the object is seen between steps only.
The database file is a value (`Tables.Disk`). It holds:

- which tables exist;
- the rows of each table, in table order;
- the metadata map;
- SQLite's AUTOINCREMENT counters.

Every SQL statement is a function on that value. The `db` handle is a flag
saying whether one is open. The two in-flight promises become:

- a flag for the init pass;
- the settled result of the persistent check.

The current time and the storage engine's faults are parameters:

- the `now: nat` parameter stands for `Math.floor(Date.now() / 1000)`;
- `LocationDb.Env` says whether the persistent check's open of the file
  fails, whether the init pass's own open fails, and which CREATE TABLE fails.

The queue holds closures (`Operations.Call`), as the source does. The closure
of each public data-access call is `Operations.CallOf(op)`: it runs
`Operations.Step`, which is the body of that call. Step does the
`if (!this.db) throw` guard, then the statement, then the returned value.

Modules, in dependency order:

| module | contents |
|---|---|
| `Wrappers` | Option, Result, Outcome |
| `Records` | row, input and enum types |
| `Seqs` | filter, count, descending sort, limit |
| `Metadata` | the key/value table and the readiness predicate |
| `Tables` | the file and the mutating statements |
| `Queries` | the read-only statements |
| `Operations` | the calls as values, the queue drain |
| `LocationDb` | the class |

## Behaviour as written

Behaviour of `lib/db.ts` that the model keeps as the code has it, although
a reader of the class's comments might expect otherwise:

- The drain stops at the first queued call that throws; the rest of the
  snapshot is dropped and never runs (db.ts:291-296).
- A call made while FAILED or CLOSED is queued, not rejected: the gate
  throws, and the catch in `executeOperation` queues whenever the state is
  not INITIALIZED (db.ts:261-276).
- "Active" means `is_active = 1`, not "no end time".
- Location queries are ordered newest first.
- There is no paging, `hasMore`, sync bookkeeping or clear-all.

## Model

| member | source | states |
|---|---|---|
| Seqs.CountPositions | mobile/locstream_rn/lib/db.ts:890 | `COUNT(*) ... WHERE p` is the number of rows that satisfy `p` |
| Seqs.LimitKeepsGreatest | mobile/locstream_rn/lib/db.ts:525-526 | `LIMIT` over a descending order keeps a sub-multiset, and every row it drops is no greater than every row it keeps |
| Metadata.Put | mobile/locstream_rn/lib/db.ts:637-647 | after `INSERT OR REPLACE` the key is present with the new value, whatever was there |
| Metadata.PutKeepsOthers | mobile/locstream_rn/lib/db.ts:637-647 | the replace adds exactly `key` to the table and leaves every other row unchanged |
| Metadata.PutIfAbsent | mobile/locstream_rn/lib/db.ts:649-658 | after `INSERT OR IGNORE` the key is present; an existing row is never overwritten; a missing key gets the given value |
| Metadata.PutIfAbsentKeepsRows | mobile/locstream_rn/lib/db.ts:649-658 | the ignore-insert adds only `key` and changes no existing row |
| Metadata.Seeded | mobile/locstream_rn/lib/db.ts:327-329 | both seed keys exist afterwards; an existing schema version or first-init time is kept; a missing version becomes "1" |
| Metadata.SeededKeepsRows | mobile/locstream_rn/lib/db.ts:327-329 | seeding adds just the two keys and changes no existing row |
| Metadata.SeedKeepsReadiness | mobile/locstream_rn/lib/db.ts:327-329 | seeding `db_version` or `last_init_timestamp` never changes whether the file reads as ready |
| Metadata.Decimal | mobile/locstream_rn/lib/db.ts:805-806 | `toString()` of a second count is a non-empty string of decimal digits that denotes exactly that count, with no leading zero |
| Metadata.Ready | mobile/locstream_rn/lib/db.ts:737-738 | the file reads as ready only if the metadata table exists and both the `initialization_state` and `db_initialized` rows are present (a missing row matches neither value) |
| Metadata.PersistState | mobile/locstream_rn/lib/db.ts:798-806 | the three writes store the state's name, `'true'` exactly for INITIALIZED, and the time, and keep the schema version |
| Metadata.StateNameInjective | mobile/locstream_rn/lib/db.ts:98-104 | two states have the same stored name only if they are the same state |
| Metadata.PersistStateReady | mobile/locstream_rn/lib/db.ts:789-790 | after a state write the readiness predicate holds exactly when the state written was INITIALIZED (false after INITIALIZING, FAILED or CLOSED) |
| Tables.EmptyDiskWellFormed | mobile/locstream_rn/lib/db.ts:722-724 | a fresh install satisfies the schema constraints and does not read as ready |
| Tables.CreateTable | mobile/locstream_rn/lib/db.ts:317-322 | `CREATE TABLE IF NOT EXISTS` adds the table and leaves an existing one and every row alone |
| Tables.CreateTableIdempotent | mobile/locstream_rn/lib/db.ts:317-322 | creating a table twice is the same as creating it once |
| Tables.InsertSession | mobile/locstream_rn/lib/db.ts:427-434 | fails with a UNIQUE violation exactly when the `session_id` is taken; otherwise appends one row with start, creation and update time now, no end, active, the given (possibly null) user, device and app version, and the id `sessionSeq + 1`, which the sessions AUTOINCREMENT counter advances to; the other counters and tables are unchanged |
| Tables.EndSessionRows | mobile/locstream_rn/lib/db.ts:446-452 | the UPDATE ends (end and update time now, inactive) exactly the rows with that `session_id` and leaves every other row as it was |
| Tables.InsertLocation | mobile/locstream_rn/lib/db.ts:484-513 | appends one row whose id the locations AUTOINCREMENT counter advances to; the timestamp defaults to now and `is_significant` to 0; every other optional column is the given value, null when absent; the old rows, the other counters and the other tables are unchanged |
| Tables.UpsertPrefs | mobile/locstream_rn/lib/db.ts:599-618 | `INSERT OR REPLACE` appends the new row with the defaults filled in, under the id its AUTOINCREMENT counter advances to; the user's old row is gone, so the new row is the only one for that user; rows of other users survive; nothing else appears; the other counters and tables are unchanged |
| Tables.KeptLocationsExact | mobile/locstream_rn/lib/db.ts:863-867 | the location DELETE keeps exactly the rows with `timestamp >= cutoff`; the deleted count is the drop in size |
| Tables.KeptSessionsExact | mobile/locstream_rn/lib/db.ts:869-873 | the session DELETE keeps exactly the active or recent rows, so every active session survives; the deleted count is the drop in size |
| Queries.ActiveSession | mobile/locstream_rn/lib/db.ts:458-475 | null exactly when no active row matches (user filter only for a truthy id); otherwise a matching row of the table with the latest start time |
| Queries.CompleteSessions | mobile/locstream_rn/lib/db.ts:838-854 | a permutation of the sessions with user, device, version and end time set, latest start first |
| Queries.SessionLocations | mobile/locstream_rn/lib/db.ts:518-532 | the newest `limit` rows of that session (all of them when fewer or the limit is negative): exactly that many, newest first, a sub-multiset of the session's rows, and every row left out no newer than every row returned |
| Queries.NewestRows | mobile/locstream_rn/lib/db.ts:522-526 | ordering a session's rows newest first and cutting at `limit` keeps exactly min(limit, n) of them, sorted, and leaves out no row newer than one it keeps |
| Queries.SessionLocationsComplete | mobile/locstream_rn/lib/db.ts:518-532 | when the limit does not bind, the result is every row of that session, each as often as in the table |
| Queries.SessionUser | mobile/locstream_rn/lib/db.ts:544-546 | the LEFT JOIN's `user_id` is that of the first session row with the location's `session_id`, and null when no session has it |
| Queries.SessionUserOfRow | mobile/locstream_rn/lib/db.ts:544-546 | with `session_id` UNIQUE, the join gives every session's locations that session's own `user_id` |
| Queries.JoinUsers | mobile/locstream_rn/lib/db.ts:543-548 | each location row keeps its place and carries its session's `user_id` |
| Queries.JoinKeepsLocations | mobile/locstream_rn/lib/db.ts:543-548 | the LEFT JOIN keeps every location row in its place: stripping the joined `user_id`s gives back the rows joined |
| Queries.LocationsByTimeRange | mobile/locstream_rn/lib/db.ts:535-561 | a permutation of the matching rows (each as often as in the table), newest first, each with its session's user |
| Queries.LocationsByTimeRangeExact | mobile/locstream_rn/lib/db.ts:543-556 | a row is returned exactly when it is in the table, inside the closed time range, and in the session when one is given |
| Queries.LocationsByBounds | mobile/locstream_rn/lib/db.ts:564-590 | exactly the rows inside the box (and session if given), each as often as in the table, newest first |
| Queries.LocationsWithNonNullValues | mobile/locstream_rn/lib/db.ts:813-835 | a permutation of the rows of the session with every quality column present and non-empty texts (each as often as in the table), newest first |
| Queries.UserPrefs | mobile/locstream_rn/lib/db.ts:624-632 | null exactly when no row has that `user_id`; otherwise a row of the table for that user |
| Queries.UpsertThenRead | mobile/locstream_rn/lib/db.ts:607-618 | after setUserPreferences the same user's preferences read back as exactly the row just written |
| Queries.StatsOf | mobile/locstream_rn/lib/db.ts:889-898 | total sessions and locations are the table sizes; active sessions is the number of rows with `is_active = 1`, so at most the total and zero exactly when no row is active |
| Operations.CleanStep | mobile/locstream_rn/lib/db.ts:861-880 | without `locations` nothing happens; the cleanup succeeds exactly when both tables exist; preferences, metadata and schema are never touched |
| Operations.CleanStepPartial | mobile/locstream_rn/lib/db.ts:863-873 | when `sessions` is missing the second DELETE throws after the first took effect: exactly the unexpired locations remain, sessions untouched |
| Operations.Step | mobile/locstream_rn/lib/db.ts:416-901 | with no handle every call throws and nothing changes; queries never change the file; a failing call other than cleanup changes nothing; no call touches the metadata or the schema |
| Operations.StartSessionResult | mobile/locstream_rn/lib/db.ts:427-436 | with the sessions table present, startSession succeeds exactly when its `session_id` is free, and then returns that id |
| Operations.AddLocationResult | mobile/locstream_rn/lib/db.ts:500-513 | with the locations table present, addLocation appends one row and returns that row's id (`lastInsertRowId`) |
| Operations.StepPreservesWellFormed | mobile/locstream_rn/lib/db.ts:337-348 | every call keeps the UNIQUE columns unique, ids within their AUTOINCREMENT counters, and missing tables empty |
| Operations.InsertSessionWellFormed | mobile/locstream_rn/lib/db.ts:338-339 | the session insert that passes the UNIQUE check keeps the file well formed |
| Operations.EndSessionWellFormed | mobile/locstream_rn/lib/db.ts:446-449 | ending a session keeps the file well formed |
| Operations.InsertLocationWellFormed | mobile/locstream_rn/lib/db.ts:500-510 | the location insert keeps the file well formed |
| Operations.UpsertPrefsWellFormed | mobile/locstream_rn/lib/db.ts:607-610 | the replace on the UNIQUE `user_id` keeps it unique |
| Operations.CleanStepWellFormed | mobile/locstream_rn/lib/db.ts:863-873 | the two DELETEs keep the file well formed |
| Operations.EndedSessionNotActive | mobile/locstream_rn/lib/db.ts:441-475 | after endSession no active-session query returns that session; its rows are ended now; every other row survives unchanged |
| Operations.AddedLocationFoundByTime | mobile/locstream_rn/lib/db.ts:480-561 | a location just added is returned by a time-range query for its own timestamp and session |
| Operations.CleanOldDataExact | mobile/locstream_rn/lib/db.ts:857-882 | cutoff is now minus the retention (default 30 days) times 86400; exactly the expired rows go; every active session stays; the two counts are reported; preferences and metadata unchanged |
| Operations.DrainWith | mobile/locstream_rn/lib/db.ts:291-296 | the drain yields no more results than entries; every result but the last is a success; it stops early only after an entry that threw |
| Operations.Drain | mobile/locstream_rn/lib/db.ts:291-296 | the drain of calls runs the first one first, on the file as it was; with no handle that first call throws, the rest never run, and the file is unchanged |
| Operations.CallOf | mobile/locstream_rn/lib/db.ts:265-274 | the closure queued for a call looks at the handle when it runs: run with no handle it throws and changes nothing |
| Operations.CallsOf | mobile/locstream_rn/lib/db.ts:264-275 | one queued closure per call, in submission order |
| Operations.RunCalls | mobile/locstream_rn/lib/db.ts:291-296 | draining an empty snapshot does nothing; otherwise the first closure runs first, on the file as it was |
| Operations.RunCallsOf | mobile/locstream_rn/lib/db.ts:264-275 | draining the closures queued for some calls is draining those calls |
| Operations.CallOfSound | mobile/locstream_rn/lib/db.ts:264-275 | every queued closure keeps the file well formed and leaves its metadata and schema alone |
| Operations.RunCallsPreserves | mobile/locstream_rn/lib/db.ts:291-294 | draining such closures keeps the file well formed, and its metadata and schema as they were |
| Operations.DrainAppend | mobile/locstream_rn/lib/db.ts:288-294 | submission order: draining `a + b` runs all of `a` first, then `b` on the file `a` left |
| Operations.DrainPreservesWellFormed | mobile/locstream_rn/lib/db.ts:291-294 | draining calls keeps the file well formed and its metadata and schema unchanged |
| LocationDb.WithState | mobile/locstream_rn/lib/db.ts:798-806 | the file after a state write reads as ready exactly for INITIALIZED, stores the state's name, and keeps the schema and rows |
| LocationDb.WithStateWellFormed | mobile/locstream_rn/lib/db.ts:798-806 | a state write keeps the file well formed when INITIALIZED is written only over the whole schema |
| LocationDb.CreateSchema | mobile/locstream_rn/lib/db.ts:303-330 | every table before the failing CREATE (all four if none fails) exists, the two seeds are written once metadata exists, and no row changes |
| LocationDb.CreateSchemaWellFormed | mobile/locstream_rn/lib/db.ts:303-330 | the schema pass keeps the file well formed and never changes whether it reads as ready |
| LocationDb.InitializedDisk | mobile/locstream_rn/lib/db.ts:164-171 | after a successful pass the file reads as ready, has all four tables, keeps its rows, and keeps or seeds the schema version |
| LocationDb.InitializedDiskWellFormed | mobile/locstream_rn/lib/db.ts:164-171 | a successful pass keeps the file well formed |
| LocationDb.RestartAdoptsInitializedFile | mobile/locstream_rn/lib/db.ts:737-748 | whatever the drained queue did, the file still reads as ready for the next start; after the CLOSED write it no longer does |
| LocationDb.LocationTrackingDB.constructor | mobile/locstream_rn/lib/db.ts:119-128 | a fresh object: NOT_INITIALIZED, no handle, empty queue, nothing in flight |
| LocationDb.LocationTrackingDB.Valid | mobile/locstream_rn/lib/db.ts:119-125 | the invariant between public calls implies that a handle is open exactly when the state is INITIALIZED |
| LocationDb.LocationTrackingDB.IsReady | mobile/locstream_rn/lib/db.ts:909-911 | although it looks only at the state, for a valid object ready means exactly that a handle is open, and then the file reads as ready |
| LocationDb.LocationTrackingDB.SetMetadata | mobile/locstream_rn/lib/db.ts:637-647 | throws with no handle; "no such table" without `metadata`; otherwise the replace of `Metadata.Put` |
| LocationDb.LocationTrackingDB.SetMetadataIfNotExists | mobile/locstream_rn/lib/db.ts:649-658 | same error cases; otherwise the ignore-insert, which leaves the file unchanged when the key exists |
| LocationDb.LocationTrackingDB.SetPersistentInitializationState | mobile/locstream_rn/lib/db.ts:798-810 | without a handle nothing happens; a failing write is swallowed; otherwise the file becomes `WithState` |
| LocationDb.LocationTrackingDB.CreateTables | mobile/locstream_rn/lib/db.ts:303-330 | throws with no handle; otherwise fails exactly at the failing CREATE with the file of `CreateSchema` |
| LocationDb.LocationTrackingDB.PerformPersistentStateCheck | mobile/locstream_rn/lib/db.ts:688-761 | true exactly when the file reads as ready through an open handle or one the check's own open produced; then INITIALIZED with the handle kept; otherwise state and handle unchanged |
| LocationDb.LocationTrackingDB.CheckPersistentInitializationStateSafe | mobile/locstream_rn/lib/db.ts:669-685 | a stored result is returned without re-checking; otherwise the check runs once and its result is stored |
| LocationDb.LocationTrackingDB.PerformInitialization | mobile/locstream_rn/lib/db.ts:190-231 | cancelled unless INITIALIZING; open failure or a failing CREATE throws and leaves no handle; success leaves the schema and an INITIALIZING write |
| LocationDb.LocationTrackingDB.Init | mobile/locstream_rn/lib/db.ts:139-187 | the fast paths, each iff its condition; adoption needs the check's open, the pass needs its own open, so a ready file whose check cannot open still gets a full pass; success ends INITIALIZED with readiness written and the queue drained; failure ends FAILED with the error stored, no handle, queue kept; in-flight fields cleared; the object invariant is kept; the error thrown and stored is the open's when the pass's open failed, otherwise the failing CREATE's |
| LocationDb.LocationTrackingDB.RunInitialization | mobile/locstream_rn/lib/db.ts:159-186 | the pass succeeds exactly when the file opens and every CREATE succeeds; a FAILED error is cleared first; a failure throws and stores the open's or the failing CREATE's error; outcome as in Init |
| LocationDb.LocationTrackingDB.AttemptPass | mobile/locstream_rn/lib/db.ts:167-181 | the try and catch around the awaited pass: INITIALIZED, written and drained on success; FAILED with the pass's own error, no handle and the queue kept on failure |
| LocationDb.LocationTrackingDB.BeginPass | mobile/locstream_rn/lib/db.ts:159-166 | a FAILED error is cleared; the state is INITIALIZING with a pass in flight |
| LocationDb.LocationTrackingDB.FailPass | mobile/locstream_rn/lib/db.ts:176-181 | FAILED with the error stored; the FAILED write happens only through an open handle |
| LocationDb.LocationTrackingDB.EndPass | mobile/locstream_rn/lib/db.ts:182-186 | both in-flight fields are forgotten |
| LocationDb.LocationTrackingDB.FinishInitialization | mobile/locstream_rn/lib/db.ts:169-175 | INITIALIZED in memory and in the file, then the queue drained, unless a drain is already running; the file reads as ready afterwards |
| LocationDb.LocationTrackingDB.EnsureInitialized | mobile/locstream_rn/lib/db.ts:234-254 | passes for INITIALIZED and INITIALIZING; throws for FAILED (quoting the stored error) and CLOSED; for NOT_INITIALIZED runs init and passes exactly when the check adopts or the pass opens and creates every table: adoption keeps the file and the queue; a full pass drains the queue; a failure throws the open's or the failing CREATE's error, ends FAILED with no handle, keeps the queue and leaves the file as far as the pass got |
| LocationDb.LocationTrackingDB.ExecuteOperation | mobile/locstream_rn/lib/db.ts:257-279 | when INITIALIZED the call runs once and its result or error is returned; FAILED and CLOSED append the call to the queue; on a restart that adopts a ready file the call runs once on the unchanged file and the queue is kept; after a full pass it runs after every earlier queued call; when the pass fails it is queued, the state is FAILED and the file is as far as the pass got; a call is queued exactly when the state is then not INITIALIZED |
| LocationDb.LocationTrackingDB.ProcessQueuedOperations | mobile/locstream_rn/lib/db.ts:282-300 | does nothing while draining; otherwise empties the queue and runs the snapshot in order up to the first error (`RunCalls`); always clears the guard |
| LocationDb.LocationTrackingDB.Apply | mobile/locstream_rn/lib/db.ts:416-901 | a call's body run in place on the object's fields gives the file and result of `Operations.Step` |
| LocationDb.LocationTrackingDB.StartSession | mobile/locstream_rn/lib/db.ts:416-438 | in place, the file and result of `Step` for startSession |
| LocationDb.LocationTrackingDB.EndSession | mobile/locstream_rn/lib/db.ts:441-455 | in place, the file and result of `Step` for endSession |
| LocationDb.LocationTrackingDB.AddLocation | mobile/locstream_rn/lib/db.ts:480-515 | in place, the file and result of `Step` for addLocation |
| LocationDb.LocationTrackingDB.SetUserPreferences | mobile/locstream_rn/lib/db.ts:595-621 | in place, the file and result of `Step` for setUserPreferences |
| LocationDb.LocationTrackingDB.CleanOldData | mobile/locstream_rn/lib/db.ts:857-882 | in place, the file and result of `Step` for cleanOldData; the first DELETE stays done when the second fails |
| LocationDb.LocationTrackingDB.Close | mobile/locstream_rn/lib/db.ts:914-945 | CLOSED; the queue is emptied without running; the in-flight fields are cleared; the handle is closed; the CLOSED write through an open handle makes the file read as not ready |

## Left out

- Concurrency. Two callers can interleave at any `await`, including the gap
  between the shared persistent check and setting INITIALIZING
  (db.ts:151-165). So the model claims no "one schema pass under concurrent
  init".
- The re-checks for cancellation after opening and after creating the tables
  (db.ts:202-216). They trip when `close` runs during those awaits, or when a
  second init pass, started through the unguarded gap at db.ts:151-165, sees
  the first pass set INITIALIZED; that pass then closes the shared handle
  (db.ts:213-214) and its init ends FAILED. Neither interleaving exists in a
  sequential model. The check on entry (db.ts:193) is modelled.
- LocationDb.LocationTrackingDB.EnsureInitialized: in INITIALIZING it passes
  without waiting. Awaiting another caller's in-flight pass is that caller's
  work.
- LocationDb.LocationTrackingDB.ExecuteOperation: the promise of a queued
  call is not modelled. The drain returns the results of the calls it ran,
  and a call dropped after a failure never settles.
- LocationDb.LocationTrackingDB.Init: when the persistent check adopts
  INITIALIZED, init returns without draining the queue (db.ts:155-157).
  Calls queued earlier stay queued, which the model states, not repairs.
- LocationDb.LocationTrackingDB.Valid: does not include the well-formedness
  of the file. Well-formedness is proved on the file functions instead
  (`StepPreservesWellFormed`, `InitializedDiskWellFormed`,
  `RestartAdoptsInitializedFile`).
- The public data-access wrappers (`startSession` and the rest) are
  `ExecuteOperation(CallOf(op))`. They have no separate method.
- The mutator methods `StartSession`, `EndSession`, `AddLocation`,
  `SetUserPreferences`, `CleanOldData` and their dispatcher `Apply` are a
  parallel in-place rendering of the same call bodies: each is proved equal to
  `Operations.Step`, but `ExecuteOperation` and the queue run the closures of
  `CallOf`, because a queued entry must be a value.
- The read-only call bodies are functions in `Queries`, and `Apply` runs
  them through `Step`.
- `getStats`' database size (a SQLite page count) is not modelled.
- Console logging is not modelled.
- The `getInstance` singleton field is not modelled. A fresh object is the
  constructor.
- `getMetadata` is not modelled: it is never called by the rest of the class.
- `getInitializationState` is not modelled: it is a plain field read.
- Indexes are not modelled, nor SQL text, nor column defaults that no
  statement relies on.
- Foreign keys are not modelled: SQLite leaves them unenforced unless asked.
- A failure of the handle itself during a data-access statement is not
  modelled: such a statement fails only on a missing table or a UNIQUE
  conflict. Open and CREATE TABLE failures during init are modelled through
  `LocationDb.Env`. A failing `closeAsync` is not modelled, because it is
  logged and ignored.
- Only the first of the three state writes is modelled as failing: a write
  fails exactly when the metadata table is missing, so either all three
  fail or none does.
- Coordinates and other REAL columns are Dafny `real`s that are only
  compared.
- `retentionDays`, `limit`, the time bounds and the other numeric arguments
  are JavaScript numbers in the source and unbounded integers here.
  Fractional, NaN and infinite arguments are not modelled.
- Rows with equal sort keys may come back in any order, since SQL leaves it
  open. Each unlimited ordered result is specified as a sorted permutation of
  the matching rows. The limited one (`Queries.SessionLocations`) is specified
  as the newest `limit` of them, with ties at the cut left open.

=== FILE: location_db.dfy ===
/**
 * The LocationTrackingDB object of lib/db.ts: the initialization
 * coordinator, the queue of deferred calls, the persistent readiness record
 * and the table mutators, as a class whose fields are the object's fields.
 *
 * Each `await` is one atomic step, so the object is seen between steps only.
 * The `initializationPromise` and `persistentStateCheckPromise` fields become
 * an in-flight flag and the settled result of the check; the SQLite handle
 * becomes a flag saying whether one is open, and the database file the
 * handle reads and writes is the `disk` field. What the environment decides
 * (whether opening the file or a CREATE TABLE fails, the current time) is a
 * parameter.
 */
module LocationDb {
  import opened Wrappers
  import opened Records
  import opened Metadata
  import opened Seqs
  import opened Tables
  import opened Queries
  import opened Operations

  /**
   * The faults of the storage engine the coordinator sees during one init:
   * whether the persistent check's own open fails, whether the init pass's
   * open fails (two separate opens of the file), and which CREATE TABLE fails.
   */
  datatype Env = Env(probeOpenFails: bool, passOpenFails: bool, createFailsAt: Option<TableName>)

  /** How a call to init ends. */
  datatype InitResult =
    | AlreadyReady                                  // the state was INITIALIZED
    | AwaitedInFlight                               // another init pass was in flight
    | AdoptedPersisted                              // the persistent check adopted INITIALIZED
    | Completed(drained: seq<Result<Value, Error>>) // the schema pass succeeded; results of the drained queue
    | InitThrew(error: Error)                       // the schema pass failed with `error`

  /** How a data-access call submitted through executeOperation ends. */
  datatype Execution = Returned(value: Value) | Queued | Threw(error: Error)
  {
    /** The result the caller's promise settles with, for a call that was not deferred. */
    function Settled(): Result<Value, Error>
      requires !Queued?
    {
      if Returned? then Ok(value) else Err(error)
    }
  }

  /** The file after setPersistentInitializationState(s) wrote all three keys. */
  function WithState(d: Disk, s: InitState, now: nat): (r: Disk)
    requires MetadataTable in d.tables
    ensures ReadyDisk(r) <==> s == Initialized
    ensures InitializationStateKey in r.metadata && r.metadata[InitializationStateKey].value == StateName(s)
    ensures r.tables == d.tables && r.sessions == d.sessions && r.locations == d.locations && r.prefs == d.prefs
  {
    PersistStateReady(d.metadata, s, now);
    d.(metadata := PersistState(d.metadata, s, now))
  }

  /** The write keeps a well-formed file well formed, provided INITIALIZED is written only over the whole schema. */
  lemma WithStateWellFormed(d: Disk, s: InitState, now: nat)
    requires MetadataTable in d.tables && WellFormed(d)
    requires s == Initialized ==> AllTables <= d.tables
    ensures WellFormed(WithState(d, s, now))
  {
  }

  /**
   * The file after createTables: every table up to the one that fails (all
   * four when none fails) exists, and the schema version and first-init time
   * are seeded unless already present. Rows are untouched, and the pass never
   * changes whether the file reads as ready.
   */
  function CreateSchema(d: Disk, now: nat, failAt: Option<TableName>): (r: Disk)
    ensures failAt.None? ==> r.tables == d.tables + AllTables
    ensures failAt.Some? ==> r.tables == d.tables + TablesBefore(failAt.value)
    ensures failAt != Some(MetadataTable) ==> r.metadata == Seeded(d.metadata, now)
    ensures failAt == Some(MetadataTable) ==> r == d
    ensures r.sessions == d.sessions && r.locations == d.locations && r.prefs == d.prefs
  {
    if failAt == Some(MetadataTable) then d
    else
      var created := if failAt.Some? then TablesBefore(failAt.value) else AllTables;
      d.(tables := d.tables + created, metadata := Seeded(d.metadata, now))
  }

  /** The schema pass keeps a well-formed file well formed and never changes whether it reads as ready. */
  lemma CreateSchemaWellFormed(d: Disk, now: nat, failAt: Option<TableName>)
    requires WellFormed(d)
    ensures WellFormed(CreateSchema(d, now, failAt))
    ensures ReadyDisk(CreateSchema(d, now, failAt)) <==> ReadyDisk(d)
  {
  }

  /**
   * The file after a successful init pass: the schema exists, and the
   * INITIALIZING and then INITIALIZED writes have happened. It reads as ready,
   * and it keeps an existing schema version.
   */
  function InitializedDisk(d: Disk, now: nat): (r: Disk)
    ensures ReadyDisk(r) && AllTables <= r.tables
    ensures r.sessions == d.sessions && r.locations == d.locations && r.prefs == d.prefs
    ensures DbVersion in r.metadata
    ensures DbVersion in d.metadata ==> r.metadata[DbVersion] == d.metadata[DbVersion]
    ensures DbVersion !in d.metadata ==> r.metadata[DbVersion].value == SchemaVersion
  {
    var schema := CreateSchema(d, now, None);
    WithState(WithState(schema, Initializing, now), Initialized, now)
  }

  /** A successful init pass keeps a well-formed file well formed. */
  lemma InitializedDiskWellFormed(d: Disk, now: nat)
    requires WellFormed(d)
    ensures WellFormed(InitializedDisk(d, now))
  {
    var schema := CreateSchema(d, now, None);
    CreateSchemaWellFormed(d, now, None);
    WithStateWellFormed(schema, Initializing, now);
    WithStateWellFormed(WithState(schema, Initializing, now), Initialized, now);
  }

  /**
   * A restart after a successful init adopts the file: whatever the drained
   * queue did, it still reads as ready; a CLOSED write on shutdown makes the
   * next start run the schema pass again.
   */
  lemma RestartAdoptsInitializedFile(d: Disk, ops: seq<Op>, now: nat, later: nat)
    requires WellFormed(d)
    ensures ReadyDisk(Drain(InitializedDisk(d, now), true, ops, now).0)
    ensures !ReadyDisk(WithState(Drain(InitializedDisk(d, now), true, ops, now).0, Closed, later))
  {
    InitializedDiskWellFormed(d, now);
    DrainPreservesWellFormed(InitializedDisk(d, now), true, ops, now);
  }

  class LocationTrackingDB {
    /** initializationState */
    var state: InitState
    /** initializationPromise is set: an init pass is in flight. */
    var initInFlight: bool
    /** initializationError */
    var initError: Option<Error>
    /** The settled result of a stored persistentStateCheckPromise. */
    var checkResult: Option<bool>
    /** db is set: a handle to the file is open. */
    var dbOpen: bool
    /** pendingOperations: the queued closures, oldest first. */
    var pending: seq<Call>
    var isProcessingQueue: bool
    /** The database file; it outlives the object. */
    var disk: Disk

    /**
     * The object between public calls: no init pass or drain is running,
     * the handle is open exactly when the state is INITIALIZED, and then the
     * file reads as ready; a cached check result exists only after adoption.
     */
    ghost predicate Valid(): (r: bool)
      reads this
      ensures r ==> (dbOpen <==> state == Initialized)
    {
      && (forall k :: 0 <= k < |pending| ==> Sound(pending[k]))
      && !initInFlight && !isProcessingQueue && state != Initializing
      && (state == Initialized ==> dbOpen && ReadyDisk(disk))
      && (state != Initialized ==> !dbOpen && checkResult == None)
    }

    /** A fresh object over the file `file`, as getInstance creates one. */
    constructor(file: Disk)
      ensures state == NotInitialized && !initInFlight && initError == None && checkResult == None
      ensures !dbOpen && pending == [] && !isProcessingQueue && disk == file
      ensures Valid()
    {
      state := NotInitialized;
      initInFlight := false;
      initError := None;
      checkResult := None;
      dbOpen := false;
      pending := [];
      isProcessingQueue := false;
      disk := file;
    }

    /** isReady: for a valid object, ready means a handle is open on a file that reads as ready. */
    predicate IsReady(): (r: bool)
      reads this
      ensures Valid() ==> (r <==> dbOpen) && (r ==> ReadyDisk(disk))
    {
      state == Initialized
    }

    // ------------------------------------------------------------ metadata

    /** setMetadata: INSERT OR REPLACE, so the new value always wins. */
    method SetMetadata(key: MetaKey, value: string, now: nat) returns (o: Outcome<Error>)
      modifies this`disk
      ensures !dbOpen ==> o == Fail(NoHandle) && disk == old(disk)
      ensures dbOpen && MetadataTable !in old(disk).tables ==> o == Fail(NoSuchTable(MetadataTable)) && disk == old(disk)
      ensures dbOpen && MetadataTable in old(disk).tables ==>
                o == Pass && disk == old(disk).(metadata := Put(old(disk).metadata, key, value, now))
    {
      if !dbOpen {
        return Fail(NoHandle);
      }
      if MetadataTable !in disk.tables {
        return Fail(NoSuchTable(MetadataTable));
      }
      disk := disk.(metadata := Put(disk.metadata, key, value, now));
      o := Pass;
    }

    /** setMetadataIfNotExists: INSERT OR IGNORE, so an existing value is kept. */
    method SetMetadataIfNotExists(key: MetaKey, value: string, now: nat) returns (o: Outcome<Error>)
      modifies this`disk
      ensures !dbOpen ==> o == Fail(NoHandle) && disk == old(disk)
      ensures dbOpen && MetadataTable !in old(disk).tables ==> o == Fail(NoSuchTable(MetadataTable)) && disk == old(disk)
      ensures dbOpen && MetadataTable in old(disk).tables ==>
                o == Pass && disk == old(disk).(metadata := PutIfAbsent(old(disk).metadata, key, value, now))
      ensures key in old(disk).metadata ==> disk == old(disk)
    {
      if !dbOpen {
        return Fail(NoHandle);
      }
      if MetadataTable !in disk.tables {
        return Fail(NoSuchTable(MetadataTable));
      }
      disk := disk.(metadata := PutIfAbsent(disk.metadata, key, value, now));
      o := Pass;
    }

    /**
     * setPersistentInitializationState: without a handle nothing happens;
     * otherwise the three keys are written, and a failing write is logged
     * and swallowed (the first write fails exactly when every write fails).
     */
    method SetPersistentInitializationState(s: InitState, now: nat)
      modifies this`disk
      ensures disk == if dbOpen && MetadataTable in old(disk).tables then WithState(old(disk), s, now) else old(disk)
    {
      if !dbOpen {
        return;
      }
      var o := SetMetadata(InitializationStateKey, StateName(s), now);
      if o.Pass? {
        o := SetMetadata(DbInitialized, if s == Initialized then "true" else "false", now);
        o := SetMetadata(LastInitTimestamp, Decimal(now), now);
      }
    }

    // ------------------------------------------------------------ schema

    /**
     * createTables: metadata (then its two seeds), sessions, locations and
     * user_preferences, in that order, stopping at the CREATE TABLE that fails.
     */
    method CreateTables(now: nat, failAt: Option<TableName>) returns (o: Outcome<Error>)
      modifies this`disk
      ensures !dbOpen ==> o == Fail(NoHandle) && disk == old(disk)
      ensures dbOpen ==> o == (if failAt.Some? then Fail(CreateFailed(failAt.value)) else Pass)
      ensures dbOpen ==> disk == CreateSchema(old(disk), now, failAt)
    {
      if !dbOpen {
        return Fail(NoHandle);
      }
      if failAt.Some? && failAt.value == MetadataTable {
        return Fail(CreateFailed(MetadataTable));
      }
      disk := CreateTable(disk, MetadataTable);
      var seeded := SetMetadataIfNotExists(DbVersion, SchemaVersion, now);
      seeded := SetMetadataIfNotExists(LastInitTimestamp, Decimal(now), now);
      assert disk == old(disk).(tables := old(disk).tables + {MetadataTable}, metadata := Seeded(old(disk).metadata, now));
      if failAt.Some? && failAt.value == SessionsTable {
        return Fail(CreateFailed(SessionsTable));
      }
      disk := CreateTable(disk, SessionsTable);
      if failAt.Some? && failAt.value == LocationsTable {
        return Fail(CreateFailed(LocationsTable));
      }
      disk := CreateTable(disk, LocationsTable);
      if failAt.Some? && failAt.value == UserPreferencesTable {
        return Fail(CreateFailed(UserPreferencesTable));
      }
      disk := CreateTable(disk, UserPreferencesTable);
      assert failAt.None?;
      o := Pass;
    }

    // ------------------------------------------------------------ persistent check

    /**
     * performPersistentStateCheck: reads the readiness record through the
     * open handle, or through a freshly opened one that is kept as the main
     * handle when the file reads as ready and closed otherwise. Adopting sets
     * the state to INITIALIZED; an open failure reads as "not ready".
     */
    method PerformPersistentStateCheck(env: Env) returns (ready: bool)
      modifies this`state, this`dbOpen
      ensures ready <==> ReadyDisk(disk) && (old(dbOpen) || !env.probeOpenFails)
      ensures ready ==> state == Initialized && dbOpen
      ensures !ready ==> state == old(state) && dbOpen == old(dbOpen)
    {
      if dbOpen && ReadyDisk(disk) {
        state := Initialized;
        return true;
      }
      // An open handle that read "not ready" reads the same rows again.
      if !dbOpen && !env.probeOpenFails && ReadyDisk(disk) {
        dbOpen := true;
        state := Initialized;
        return true;
      }
      ready := false;
    }

    /**
     * checkPersistentInitializationStateSafe: a stored check is reused and
     * never re-run; only init's cleanup and close forget it.
     */
    method CheckPersistentInitializationStateSafe(env: Env) returns (ready: bool)
      modifies this`state, this`dbOpen, this`checkResult
      ensures old(checkResult).Some? ==>
                ready == old(checkResult).value && checkResult == old(checkResult)
                && state == old(state) && dbOpen == old(dbOpen)
      ensures old(checkResult).None? ==>
                && checkResult == Some(ready)
                && (ready <==> ReadyDisk(disk) && (old(dbOpen) || !env.probeOpenFails))
                && (ready ==> state == Initialized && dbOpen)
                && (!ready ==> state == old(state) && dbOpen == old(dbOpen))
    {
      if checkResult.Some? {
        return checkResult.value;
      }
      ready := PerformPersistentStateCheck(env);
      checkResult := Some(ready);
    }

    // ------------------------------------------------------------ init

    /**
     * performInitialization: refuses to run unless the state is INITIALIZING,
     * opens the file unless a handle is already open, creates the schema and
     * writes INITIALIZING. Any failure closes the handle.
     */
    method PerformInitialization(now: nat, env: Env) returns (o: Outcome<Error>)
      modifies this`dbOpen, this`disk
      ensures o.Fail? ==> !dbOpen
      ensures o.Pass? ==> dbOpen
      ensures state != Initializing ==> o == Fail(Cancelled) && disk == old(disk)
      ensures state == Initializing && !old(dbOpen) && env.passOpenFails ==> o == Fail(OpenFailed) && disk == old(disk)
      ensures state == Initializing && (old(dbOpen) || !env.passOpenFails) ==>
                && o == (if env.createFailsAt.Some? then Fail(CreateFailed(env.createFailsAt.value)) else Pass)
                && disk == (if o.Pass? then WithState(CreateSchema(old(disk), now, None), Initializing, now)
                            else CreateSchema(old(disk), now, env.createFailsAt))
    {
      if state != Initializing {
        dbOpen := false;
        return Fail(Cancelled);
      }
      if !dbOpen {
        if env.passOpenFails {
          return Fail(OpenFailed);
        }
        dbOpen := true;
      }
      o := CreateTables(now, env.createFailsAt);
      if o.Fail? {
        dbOpen := false;
        return;
      }
      SetPersistentInitializationState(Initializing, now);
    }

    /**
     * init. Returns at once when INITIALIZED or when another pass is in
     * flight; returns after the persistent check when it adopted INITIALIZED
     * (leaving the queue as it was); otherwise clears a FAILED error, runs
     * the schema pass and ends INITIALIZED (readiness written, queue drained)
     * or FAILED (error kept, no handle, so the FAILED write does nothing).
     * Both in-flight fields are cleared whenever the pass ran.
     */
    method Init(now: nat, env: Env) returns (r: InitResult)
      modifies this
      ensures r.AlreadyReady? <==> old(state) == Initialized
      ensures r.AwaitedInFlight? <==> old(state) == Initializing && old(initInFlight)
      ensures r.AlreadyReady? || r.AwaitedInFlight? ==> unchanged(this)
      ensures r.AdoptedPersisted? <==>
                && old(state) != Initialized && !(old(state) == Initializing && old(initInFlight))
                && old(checkResult).None? && ReadyDisk(old(disk)) && (old(dbOpen) || !env.probeOpenFails)
      ensures r.AdoptedPersisted? ==>
                && state == Initialized && dbOpen && disk == old(disk) && checkResult == Some(true)
                && pending == old(pending) && initError == old(initError)
      ensures r.Completed? <==>
                && old(state) != Initialized && !(old(state) == Initializing && old(initInFlight))
                && !r.AdoptedPersisted? && (old(dbOpen) || !env.passOpenFails) && env.createFailsAt.None?
      ensures r.Completed? || r.InitThrew? ==> !initInFlight && checkResult == None
      ensures r.InitThrew? ==>
                r.error == if !old(dbOpen) && env.passOpenFails then OpenFailed else CreateFailed(env.createFailsAt.value)
      ensures r.Completed? ==>
                && state == Initialized && dbOpen
                && initError == (if old(state) == Failed then None else old(initError))
                && isProcessingQueue == old(isProcessingQueue)
                && (old(isProcessingQueue) ==>
                      disk == InitializedDisk(old(disk), now) && r.drained == [] && pending == old(pending))
                && (!old(isProcessingQueue) ==>
                      (disk, r.drained) == RunCalls(InitializedDisk(old(disk), now), true, old(pending), now) && pending == [])
      ensures r.InitThrew? ==>
                && state == Failed && initError == Some(r.error) && !dbOpen && pending == old(pending)
                && disk == (if old(dbOpen) || !env.passOpenFails then CreateSchema(old(disk), now, env.createFailsAt) else old(disk))
      ensures old(Valid()) ==> Valid()
    {
      if state == Initialized {
        return AlreadyReady;
      }
      if state == Initializing && initInFlight {
        return AwaitedInFlight;
      }
      var persisted := CheckPersistentInitializationStateSafe(env);
      if persisted && state == Initialized {
        return AdoptedPersisted;
      }
      r := RunInitialization(now, env);
    }

    /**
     * The part of init after the persistent check: a FAILED error is
     * cleared, the state becomes INITIALIZING with a pass in flight, and the
     * pass's outcome decides between INITIALIZED and FAILED.
     */
    method RunInitialization(now: nat, env: Env) returns (r: InitResult)
      modifies this
      ensures r.Completed? <==> (old(dbOpen) || !env.passOpenFails) && env.createFailsAt.None?
      ensures !r.Completed? ==> r.InitThrew?
      ensures r.InitThrew? ==>
                r.error == if !old(dbOpen) && env.passOpenFails then OpenFailed else CreateFailed(env.createFailsAt.value)
      ensures !initInFlight && checkResult == None
      ensures r.Completed? ==>
                && state == Initialized && dbOpen
                && initError == (if old(state) == Failed then None else old(initError))
                && isProcessingQueue == old(isProcessingQueue)
                && (old(isProcessingQueue) ==>
                      disk == InitializedDisk(old(disk), now) && r.drained == [] && pending == old(pending))
                && (!old(isProcessingQueue) ==>
                      (disk, r.drained) == RunCalls(InitializedDisk(old(disk), now), true, old(pending), now) && pending == [])
      ensures r.InitThrew? ==>
                && state == Failed && initError == Some(r.error) && !dbOpen
                && pending == old(pending) && isProcessingQueue == old(isProcessingQueue)
                && disk == (if old(dbOpen) || !env.passOpenFails then CreateSchema(old(disk), now, env.createFailsAt) else old(disk))
      ensures (&& !old(isProcessingQueue)
               && (forall k :: 0 <= k < |old(pending)| ==> Sound(old(pending)[k]))) ==> Valid()
    {
      ghost var d0, p0, q0, o0 := disk, pending, isProcessingQueue, dbOpen;
      BeginPass();
      assert disk == d0 && pending == p0 && isProcessingQueue == q0 && dbOpen == o0;
      r := AttemptPass(now, env);
      EndPass();
    }

    /**
     * init's try and catch blocks around the awaited pass: INITIALIZED, the
     * readiness write and the drain when the pass succeeds; FAILED with the
     * pass's error when it throws.
     */
    method AttemptPass(now: nat, env: Env) returns (r: InitResult)
      requires state == Initializing
      modifies this`dbOpen, this`disk, this`state, this`initError, this`pending, this`isProcessingQueue
      ensures r.Completed? <==> (old(dbOpen) || !env.passOpenFails) && env.createFailsAt.None?
      ensures !r.Completed? ==> r.InitThrew?
      ensures r.InitThrew? ==>
                r.error == if !old(dbOpen) && env.passOpenFails then OpenFailed else CreateFailed(env.createFailsAt.value)
      ensures r.Completed? ==>
                && state == Initialized && dbOpen && initError == old(initError)
                && isProcessingQueue == old(isProcessingQueue)
                && (old(isProcessingQueue) ==>
                      disk == InitializedDisk(old(disk), now) && r.drained == [] && pending == old(pending))
                && (!old(isProcessingQueue) ==>
                      (disk, r.drained) == RunCalls(InitializedDisk(old(disk), now), true, old(pending), now) && pending == [])
                && ((forall k :: 0 <= k < |old(pending)| ==> Sound(old(pending)[k])) ==> ReadyDisk(disk))
      ensures r.InitThrew? ==>
                && state == Failed && initError == Some(r.error) && !dbOpen
                && pending == old(pending) && isProcessingQueue == old(isProcessingQueue)
                && disk == (if old(dbOpen) || !env.passOpenFails then CreateSchema(old(disk), now, env.createFailsAt) else old(disk))
    {
      ghost var before := disk;
      var o := PerformInitialization(now, env);
      if o.Pass? {
        var drained := CompletePass(before, now);
        r := Completed(drained);
      } else {
        FailPass(o.error, now);
        r := InitThrew(o.error);
      }
    }

    /** The success branch of init, after a pass over `before` left its schema and the INITIALIZING write. */
    method CompletePass(ghost before: Disk, now: nat) returns (drained: seq<Result<Value, Error>>)
      requires dbOpen && disk == WithState(CreateSchema(before, now, None), Initializing, now)
      modifies this`state, this`disk, this`pending, this`isProcessingQueue
      ensures state == Initialized
      ensures old(isProcessingQueue) ==>
                && disk == InitializedDisk(before, now) && drained == []
                && pending == old(pending) && isProcessingQueue
      ensures !old(isProcessingQueue) ==>
                && (disk, drained) == RunCalls(InitializedDisk(before, now), true, old(pending), now)
                && pending == [] && !isProcessingQueue
      ensures (forall k :: 0 <= k < |old(pending)| ==> Sound(old(pending)[k])) ==> ReadyDisk(disk)
    {
      assert WithState(disk, Initialized, now) == InitializedDisk(before, now);
      drained := FinishInitialization(now);
    }

    /** The start of a schema pass: a FAILED error is cleared and the pass is in flight. */
    method BeginPass()
      modifies this`initError, this`state, this`initInFlight
      ensures state == Initializing && initInFlight
      ensures initError == if old(state) == Failed then None else old(initError)
    {
      if state == Failed {
        initError := None;
      }
      state := Initializing;
      initInFlight := true;
    }

    /** init's catch block: FAILED with the error stored, and FAILED written through an open handle. */
    method FailPass(error: Error, now: nat)
      modifies this`state, this`initError, this`disk
      ensures state == Failed && initError == Some(error)
      ensures disk == if dbOpen && MetadataTable in old(disk).tables then WithState(old(disk), Failed, now) else old(disk)
    {
      state := Failed;
      initError := Some(error);
      SetPersistentInitializationState(Failed, now);
    }

    /** init's finally block: both in-flight fields are forgotten. */
    method EndPass()
      modifies this`initInFlight, this`checkResult
      ensures !initInFlight && checkResult == None
    {
      initInFlight := false;
      checkResult := None;
    }

    /**
     * The success branch of init: INITIALIZED in memory and in the file, then
     * the queue is drained. A well-formed file with the whole schema stays
     * well formed and reads as ready afterwards.
     */
    method FinishInitialization(now: nat) returns (drained: seq<Result<Value, Error>>)
      requires dbOpen && MetadataTable in disk.tables
      modifies this`state, this`disk, this`pending, this`isProcessingQueue
      ensures state == Initialized
      ensures old(isProcessingQueue) ==>
                && disk == WithState(old(disk), Initialized, now) && drained == []
                && pending == old(pending) && isProcessingQueue
      ensures !old(isProcessingQueue) ==>
                && (disk, drained) == RunCalls(WithState(old(disk), Initialized, now), true, old(pending), now)
                && pending == [] && !isProcessingQueue
      ensures (forall k :: 0 <= k < |old(pending)| ==> Sound(old(pending)[k])) ==> ReadyDisk(disk)
    {
      state := Initialized;
      SetPersistentInitializationState(Initialized, now);
      ghost var marked := disk;
      drained := ProcessQueuedOperations(now);
      if forall k :: 0 <= k < |old(pending)| ==> Sound(old(pending)[k]) {
        RunCallsPreserves(marked, dbOpen, old(pending), now);
      }
    }

    /**
     * ensureInitialized: passes when INITIALIZED, throws for FAILED (quoting
     * the stored error) and CLOSED, runs init when NOT_INITIALIZED and passes
     * when INITIALIZING (the in-flight pass is another caller's work).
     */
    method EnsureInitialized(now: nat, env: Env) returns (o: Outcome<Error>)
      modifies this
      ensures old(state) == Initialized || old(state) == Initializing ==> o == Pass && unchanged(this)
      ensures old(state) == Failed ==> o == Fail(InitializationFailed(old(initError))) && unchanged(this)
      ensures old(state) == Closed ==> o == Fail(DatabaseClosed) && unchanged(this)
      ensures old(state) == NotInitialized ==> (o.Pass? <==> state == Initialized) && (o.Fail? ==> state == Failed)
      ensures state != Initialized ==> pending == old(pending)
      ensures old(state) == NotInitialized && old(Valid()) ==>
                (o.Pass? <==> (ReadyDisk(old(disk)) && !env.probeOpenFails) || (!env.passOpenFails && env.createFailsAt.None?))
      ensures old(state) == NotInitialized && old(Valid()) && !(ReadyDisk(old(disk)) && !env.probeOpenFails) && !env.passOpenFails && env.createFailsAt.None? ==>
                && o.Pass? && state == Initialized && dbOpen && pending == []
                && disk == RunCalls(InitializedDisk(old(disk), now), true, old(pending), now).0
      ensures old(state) == NotInitialized && old(Valid()) && ReadyDisk(old(disk)) && !env.probeOpenFails ==>
                o.Pass? && state == Initialized && dbOpen && disk == old(disk) && pending == old(pending)
      ensures old(state) == NotInitialized && old(Valid()) && !(ReadyDisk(old(disk)) && !env.probeOpenFails)
              && (env.passOpenFails || env.createFailsAt.Some?) ==>
                && o == Fail(if env.passOpenFails then OpenFailed else CreateFailed(env.createFailsAt.value))
                && state == Failed && initError == Some(o.error) && !dbOpen && pending == old(pending)
                && disk == (if env.passOpenFails then old(disk) else CreateSchema(old(disk), now, env.createFailsAt))
      ensures old(Valid()) ==> Valid()
    {
      match state
      case Initialized =>
        o := Pass;
      case Failed =>
        o := Fail(InitializationFailed(initError));
      case Closed =>
        o := Fail(DatabaseClosed);
      case NotInitialized =>
        var r := Init(now, env);
        o := if r.InitThrew? then Fail(r.error) else Pass;
      case Initializing =>
        o := Pass;
    }

    /**
     * executeOperation: runs `operation` once the readiness gate passes; when
     * the gate or `operation` throws, `operation` is appended to the queue if
     * the state is not INITIALIZED, and the error propagates otherwise. The
     * public data-access calls pass their bodies, `CallOf(op)`.
     */
    method ExecuteOperation(operation: Call, now: nat, env: Env) returns (x: Execution)
      modifies this
      ensures old(state) == Initialized ==>
                && !x.Queued? && (disk, x.Settled()) == operation(old(disk), old(dbOpen), now)
                && pending == old(pending) && state == Initialized
      ensures old(state) == Failed || old(state) == Closed ==>
                x == Queued && pending == old(pending) + [operation] && disk == old(disk) && state == old(state)
      ensures x.Queued? ==> pending == old(pending) + [operation]
      ensures old(Valid()) && Sound(operation) ==> Valid() && (x.Queued? <==> state != Initialized)
      ensures old(Valid()) && old(state) == NotInitialized && !(ReadyDisk(old(disk)) && !env.probeOpenFails) && !env.passOpenFails && env.createFailsAt.None? ==>
                var drained := RunCalls(InitializedDisk(old(disk), now), true, old(pending), now).0;
                && !x.Queued? && pending == []
                && (disk, x.Settled()) == operation(drained, true, now)
      ensures old(Valid()) && old(state) == NotInitialized && ReadyDisk(old(disk)) && !env.probeOpenFails ==>
                && !x.Queued? && pending == old(pending) && state == Initialized
                && (disk, x.Settled()) == operation(old(disk), true, now)
      ensures old(Valid()) && old(state) == NotInitialized && !(ReadyDisk(old(disk)) && !env.probeOpenFails)
              && (env.passOpenFails || env.createFailsAt.Some?) ==>
                && x == Queued && state == Failed && pending == old(pending) + [operation]
                && disk == (if env.passOpenFails then old(disk) else CreateSchema(old(disk), now, env.createFailsAt))
    {
      // One try block: the gate and then the operation; the catch decides.
      var gate := EnsureInitialized(now, env);
      var outcome: Result<Value, Error>;
      if gate.Pass? {
        var (after, r) := operation(disk, dbOpen, now);
        disk := after;
        outcome := r;
      } else {
        outcome := Err(gate.error);
      }
      if outcome.Ok? {
        return Returned(outcome.value);
      }
      if state != Initialized {
        pending := pending + [operation];
        return Queued;
      }
      x := Threw(outcome.error);
    }

    // ------------------------------------------------------------ queue

    /**
     * processQueuedOperations: does nothing while a drain is running or when
     * the queue is empty; otherwise takes the whole queue, empties it, and
     * runs the calls in submission order until one throws, dropping the rest.
     */
    method ProcessQueuedOperations(now: nat) returns (results: seq<Result<Value, Error>>)
      modifies this`pending, this`isProcessingQueue, this`disk
      ensures old(isProcessingQueue) ==>
                results == [] && pending == old(pending) && isProcessingQueue && disk == old(disk)
      ensures !old(isProcessingQueue) ==>
                && pending == [] && !isProcessingQueue
                && (disk, results) == RunCalls(old(disk), dbOpen, old(pending), now)
    {
      if isProcessingQueue {
        return [];
      }
      if |pending| == 0 {
        // nothing queued: RunCalls of no calls leaves the file as it is
        return [];
      }
      isProcessingQueue := true;
      var operations := pending;
      pending := [];
      results := [];
      var open := dbOpen;
      var i := 0;
      assert operations[0..] == operations;
      assert results + RunCalls(disk, open, operations[0..], now).1 == RunCalls(disk, open, operations[0..], now).1;
      while i < |operations|
        invariant 0 <= i <= |operations|
        invariant pending == [] && isProcessingQueue && open == dbOpen
        invariant RunCalls(old(disk), open, operations, now)
                  == (RunCalls(disk, open, operations[i..], now).0, results + RunCalls(disk, open, operations[i..], now).1)
        decreases |operations| - i
      {
        RunCallsNext(old(disk), open, operations, now, i, disk, results);
        var (after, r) := operations[i](disk, open, now);
        disk := after;
        results := results + [r];
        if r.Err? {
          // logged; the rest of the snapshot is dropped
          break;
        }
        i := i + 1;
      }
      assert results + [] == results;
      isProcessingQueue := false;
    }

    /** One queued or direct call, run against the handle and the file. */
    method Apply(op: Op, now: nat) returns (r: Result<Value, Error>)
      modifies this`disk
      ensures (disk, r) == Step(old(disk), dbOpen, op, now)
    {
      match op
      case StartSession(data) =>
        r := StartSession(data, now);
      case EndSession(sid) =>
        r := EndSession(sid, now);
      case AddLocation(data) =>
        r := AddLocation(data, now);
      case SetUserPreferences(userId, p) =>
        r := SetUserPreferences(userId, p, now);
      case CleanOldData(days) =>
        r := CleanOldData(days, now);
      case _ =>
        // The remaining calls only read.
        r := Step(disk, dbOpen, op, now).1;
    }

    // ------------------------------------------------------------ table mutators

    /** startSession: the UNIQUE session_id is checked, then one active row is appended. */
    method StartSession(data: SessionData, now: nat) returns (r: Result<Value, Error>)
      modifies this`disk
      ensures (disk, r) == Step(old(disk), dbOpen, Op.StartSession(data), now)
    {
      if !dbOpen {
        return Err(NoHandle);
      }
      if SessionsTable !in disk.tables {
        return Err(NoSuchTable(SessionsTable));
      }
      if SessionIdTaken(disk.sessions, data.sessionId) {
        return Err(UniqueViolation(SessionsTable));
      }
      var id := disk.sessionSeq + 1;
      disk := disk.(sessions := disk.sessions + [NewSession(id, data, now)], sessionSeq := id);
      r := Ok(SessionIdValue(data.sessionId));
    }

    /** endSession: one UPDATE that ends every row with that session_id. */
    method EndSession(sessionId: string, now: nat) returns (r: Result<Value, Error>)
      modifies this`disk
      ensures (disk, r) == Step(old(disk), dbOpen, Op.EndSession(sessionId), now)
    {
      if !dbOpen {
        return Err(NoHandle);
      }
      if SessionsTable !in disk.tables {
        return Err(NoSuchTable(SessionsTable));
      }
      disk := disk.(sessions := EndSessionRows(disk.sessions, sessionId, now));
      r := Ok(NoValue);
    }

    /** addLocation: appends one row and returns its new id. */
    method AddLocation(data: LocationData, now: nat) returns (r: Result<Value, Error>)
      modifies this`disk
      ensures (disk, r) == Step(old(disk), dbOpen, Op.AddLocation(data), now)
    {
      if !dbOpen {
        return Err(NoHandle);
      }
      if LocationsTable !in disk.tables {
        return Err(NoSuchTable(LocationsTable));
      }
      var id := disk.locationSeq + 1;
      disk := disk.(locations := disk.locations + [NewLocation(id, data, now)], locationSeq := id);
      r := Ok(RowId(id));
    }

    /** setUserPreferences: INSERT OR REPLACE on the UNIQUE user_id. */
    method SetUserPreferences(userId: string, prefs: UserPreferences, now: nat) returns (r: Result<Value, Error>)
      modifies this`disk
      ensures (disk, r) == Step(old(disk), dbOpen, Op.SetUserPreferences(userId, prefs), now)
    {
      if !dbOpen {
        return Err(NoHandle);
      }
      if UserPreferencesTable !in disk.tables {
        return Err(NoSuchTable(UserPreferencesTable));
      }
      disk := UpsertPrefs(disk, userId, prefs, now);
      r := Ok(NoValue);
    }

    /**
     * cleanOldData: the two DELETEs, each reporting how many rows it removed;
     * the first has taken effect when the second fails.
     */
    method CleanOldData(retentionDays: Option<int>, now: nat) returns (r: Result<Value, Error>)
      modifies this`disk
      ensures (disk, r) == Step(old(disk), dbOpen, Op.CleanOldData(retentionDays), now)
    {
      if !dbOpen {
        return Err(NoHandle);
      }
      var cutoff := Cutoff(now, OrDefault(retentionDays, DefaultRetentionDays));
      if LocationsTable !in disk.tables {
        return Err(NoSuchTable(LocationsTable));
      }
      var locationsDeleted := ExpiredLocationCount(disk.locations, cutoff);
      disk := disk.(locations := KeptLocations(disk.locations, cutoff));
      if SessionsTable !in disk.tables {
        return Err(NoSuchTable(SessionsTable));
      }
      var sessionsDeleted := ExpiredSessionCount(disk.sessions, cutoff);
      disk := disk.(sessions := KeptSessions(disk.sessions, cutoff));
      r := Ok(Cleanup(CleanupResult(locationsDeleted, sessionsDeleted)));
    }

    // ------------------------------------------------------------ close

    /**
     * close: CLOSED in memory and, through an open handle, in the file; both
     * in-flight fields are forgotten, the queue is emptied without running,
     * and the handle is closed.
     */
    method Close(now: nat)
      modifies this
      ensures state == Closed && !dbOpen && pending == [] && !initInFlight && checkResult == None
      ensures initError == old(initError) && isProcessingQueue == old(isProcessingQueue)
      ensures disk == if old(dbOpen) && MetadataTable in old(disk).tables then WithState(old(disk), Closed, now) else old(disk)
      ensures old(dbOpen) && MetadataTable in old(disk).tables ==> !ReadyDisk(disk)
      ensures old(Valid()) ==> Valid()
    {
      state := Closed;
      if dbOpen {
        SetPersistentInitializationState(Closed, now);
      }
      initInFlight := false;
      checkResult := None;
      pending := [];
      dbOpen := false;
    }
  }
}

=== FILE: metadata.dfy ===
/**
 * The `metadata` key/value table and the persistent readiness record kept in
 * it (lib/db.ts, setMetadata, setMetadataIfNotExists,
 * setPersistentInitializationState, checkCurrentDatabaseState).
 */
module Metadata {
  import opened Records

  /** One row of `metadata`: the key is the map key. */
  datatype MetaRow = MetaRow(value: string, createdAt: int, updatedAt: int)

  type MetaTable = map<MetaKey, MetaRow>

  /** `DB_VERSION.toString()`. */
  const SchemaVersion: string := "1"

  /** The number a decimal digit stands for. */
  function DigitValue(c: char): int
  {
    c as int - '0' as int
  }

  /** The number a string of decimal digits denotes, most significant digit first. */
  function DecimalValue(s: string): int
  {
    if s == [] then 0 else DecimalValue(s[..|s| - 1]) * 10 + DigitValue(s[|s| - 1])
  }

  function DigitChar(d: nat): (c: char)
    requires d < 10
    ensures '0' <= c <= '9' && DigitValue(c) == d
  {
    ('0' as int + d) as char
  }

  /** The decimal text of a second count, as `toString()` writes it: digits that denote `n`, with no leading zero. */
  function Decimal(n: nat): (r: string)
    ensures 1 <= |r|
    ensures forall i :: 0 <= i < |r| ==> '0' <= r[i] <= '9'
    ensures DecimalValue(r) == n
    ensures n < 10 <==> |r| == 1
    ensures |r| > 1 ==> r[0] != '0'
  {
    if n < 10 then [DigitChar(n)]
    else
      var front := Decimal(n / 10);
      var last := DigitChar(n % 10);
      assert (front + [last])[..|front|] == front;
      front + [last]
  }

  /**
   * `INSERT OR REPLACE INTO metadata (key, value, updated_at)`: the old row for
   * `key`, if any, is deleted and a new one inserted, so `created_at` takes its
   * default (the current time) again.
   */
  function Put(m: MetaTable, key: MetaKey, value: string, now: int): (r: MetaTable)
    ensures key in r && r[key].value == value
  {
    m[key := MetaRow(value, now, now)]
  }

  /** A replace adds `key` and changes no other row. */
  lemma PutKeepsOthers(m: MetaTable, key: MetaKey, value: string, now: int)
    ensures Put(m, key, value, now).Keys == m.Keys + {key}
    ensures forall k :: k in m && k != key ==> Put(m, key, value, now)[k] == m[k]
  {
  }

  /** `INSERT OR IGNORE INTO metadata (key, value)`: a row that exists is never overwritten. */
  function PutIfAbsent(m: MetaTable, key: MetaKey, value: string, now: int): (r: MetaTable)
    ensures key in r
    ensures key in m ==> r == m
    ensures key !in m ==> r[key].value == value
  {
    if key in m then m else m[key := MetaRow(value, now, now)]
  }

  /** An ignore-on-conflict insert adds `key` when missing and changes no existing row. */
  lemma PutIfAbsentKeepsRows(m: MetaTable, key: MetaKey, value: string, now: int)
    ensures PutIfAbsent(m, key, value, now).Keys == m.Keys + {key}
    ensures forall k :: k in m ==> PutIfAbsent(m, key, value, now)[k] == m[k]
  {
  }

  /**
   * createMetadataTable's two `setMetadataIfNotExists` calls: the schema
   * version and the first-initialization time, each only if not yet present.
   */
  function Seeded(m: MetaTable, now: nat): (r: MetaTable)
    ensures DbVersion in r && LastInitTimestamp in r
    ensures DbVersion in m ==> r[DbVersion] == m[DbVersion]
    ensures DbVersion !in m ==> r[DbVersion].value == SchemaVersion
    ensures LastInitTimestamp in m ==> r[LastInitTimestamp] == m[LastInitTimestamp]
  {
    PutIfAbsent(PutIfAbsent(m, DbVersion, SchemaVersion, now), LastInitTimestamp, Decimal(now), now)
  }

  /** Seeding adds the two keys when missing and changes no existing row. */
  lemma SeededKeepsRows(m: MetaTable, now: nat)
    ensures Seeded(m, now).Keys == m.Keys + {DbVersion, LastInitTimestamp}
    ensures forall k :: k in m ==> Seeded(m, now)[k] == m[k]
  {
    var m1 := PutIfAbsent(m, DbVersion, SchemaVersion, now);
    PutIfAbsentKeepsRows(m, DbVersion, SchemaVersion, now);
    PutIfAbsentKeepsRows(m1, LastInitTimestamp, Decimal(now), now);
  }

  /**
   * The readiness predicate of performPersistentStateCheck and
   * checkCurrentDatabaseState: the metadata table exists, and the
   * `initialization_state` and `db_initialized` rows read 'INITIALIZED' and
   * 'true'. A missing row reads as `undefined`, which equals neither.
   */
  predicate Ready(metadataTableExists: bool, m: MetaTable): (r: bool)
    ensures r ==> metadataTableExists && InitializationStateKey in m && DbInitialized in m
  {
    && metadataTableExists
    && InitializationStateKey in m && m[InitializationStateKey].value == StateName(Initialized)
    && DbInitialized in m && m[DbInitialized].value == "true"
  }

  /**
   * The three writes of setPersistentInitializationState when all succeed:
   * the state's name, the 'true'/'false' flag, and the current time.
   */
  function PersistState(m: MetaTable, s: InitState, now: nat): (r: MetaTable)
    ensures InitializationStateKey in r && DbInitialized in r && LastInitTimestamp in r
    ensures r[InitializationStateKey].value == StateName(s)
    ensures r[DbInitialized].value == "true" <==> s == Initialized
    ensures r[LastInitTimestamp].value == Decimal(now)
    ensures DbVersion in m ==> DbVersion in r && r[DbVersion] == m[DbVersion]
  {
    var m1 := Put(m, InitializationStateKey, StateName(s), now);
    var m2 := Put(m1, DbInitialized, if s == Initialized then "true" else "false", now);
    Put(m2, LastInitTimestamp, Decimal(now), now)
  }

  /** Distinct states are stored under distinct names. */
  lemma StateNameInjective(s: InitState, t: InitState)
    ensures StateName(s) == StateName(t) <==> s == t
  {
  }

  /**
   * After a persisted write of state `s` into an existing metadata table the
   * readiness check holds exactly when `s` is INITIALIZED: a successful init
   * makes it true, an INITIALIZING, FAILED or CLOSED write makes it false.
   */
  lemma PersistStateReady(m: MetaTable, s: InitState, now: nat)
    ensures Ready(true, PersistState(m, s, now)) <==> s == Initialized
  {
    StateNameInjective(s, Initialized);
  }

  /** Seeding a key never changes whether the store reads as ready, since the seeded keys are not read by the check. */
  lemma SeedKeepsReadiness(m: MetaTable, key: MetaKey, value: string, now: int, exists_: bool)
    requires key == DbVersion || key == LastInitTimestamp
    ensures Ready(exists_, PutIfAbsent(m, key, value, now)) == Ready(exists_, m)
  {
  }
}

=== FILE: operations.dfy ===
/**
 * The public data-access calls of LocationTrackingDB as values, so that the
 * operation queue can hold them, and what each call's body does when it runs
 * against the handle: the `if (!this.db) throw` guard, the statement(s), and
 * the value returned.
 */
module Operations {
  import opened Wrappers
  import opened Records
  import opened Metadata
  import opened Seqs
  import opened Tables
  import opened Queries

  /** One data-access call with its arguments (an absent optional argument is `None`). */
  datatype Op =
    | StartSession(data: SessionData)
    | EndSession(sessionId: string)
    | GetActiveSession(activeUser: Option<string>)
    | AddLocation(location: LocationData)
    | GetSessionLocations(locationsSession: string, limit: Option<int>)
    | GetLocationsByTimeRange(startTime: int, endTime: int, rangeSession: Option<string>)
    | GetLocationsByBounds(bounds: GeographicBounds, boundsSession: Option<string>)
    | SetUserPreferences(prefsOwner: string, prefs: UserPreferences)
    | GetUserPreferences(prefsUser: string)
    | GetLocationsWithNonNullValues(qualitySession: string)
    | GetCompleteSessions
    | CleanOldData(retentionDays: Option<int>)
    | GetStats
  {
    /** The calls whose statements only read. */
    predicate IsQuery()
    {
      !(StartSession? || EndSession? || AddLocation? || SetUserPreferences? || CleanOldData?)
    }
  }

  /** What a call resolves to. */
  datatype Value =
    | SessionIdValue(sessionId: string)
    | NoValue
    | MaybeSession(session: Option<SessionRow>)
    | RowId(id: nat)
    | LocationRows(locations: seq<LocationRow>)
    | JoinedRows(joined: seq<JoinedLocation>)
    | SessionRows(sessions: seq<SessionRow>)
    | MaybePrefs(prefs: Option<PrefsRow>)
    | Cleanup(cleanup: CleanupResult)
    | StatsValue(stats: Stats)

  /** `x ?? default` for an optional numeric argument with a default. */
  function OrDefault(x: Option<int>, default: int): int
  {
    if x.Some? then x.value else default
  }

  /**
   * The cleanup's two DELETEs. Without `locations` nothing happens; it
   * succeeds exactly when both tables exist; it never touches the
   * preferences, the metadata or the schema.
   */
  function CleanStep(d: Disk, retentionDays: int, now: nat): (r: (Disk, Result<Value, Error>))
    ensures LocationsTable !in d.tables ==> r == (d, Err(NoSuchTable(LocationsTable)))
    ensures r.1.Ok? <==> LocationsTable in d.tables && SessionsTable in d.tables
    ensures r.0.prefs == d.prefs && r.0.metadata == d.metadata && r.0.tables == d.tables
  {
    var cutoff := Cutoff(now, retentionDays);
    if LocationsTable !in d.tables then (d, Err(NoSuchTable(LocationsTable)))
    else
      var d1 := d.(locations := KeptLocations(d.locations, cutoff));
      if SessionsTable !in d.tables then (d1, Err(NoSuchTable(SessionsTable)))
      else
        var d2 := d1.(sessions := KeptSessions(d.sessions, cutoff));
        (d2, Ok(Cleanup(CleanupResult(ExpiredLocationCount(d.locations, cutoff), ExpiredSessionCount(d.sessions, cutoff)))))
  }

  /**
   * Runs one call's body on the file `d`, with `open` telling whether the
   * handle is open, at time `now`. A statement on a missing table raises
   * "no such table".
   */
  function Step(d: Disk, open: bool, op: Op, now: nat): (r: (Disk, Result<Value, Error>))
    ensures !open ==> r == (d, Err(NoHandle))
    ensures op.IsQuery() ==> r.0 == d
    ensures r.1.Err? && !op.CleanOldData? ==> r.0 == d
    ensures r.0.metadata == d.metadata && r.0.tables == d.tables
  {
    if !open then (d, Err(NoHandle))
    else match op
      case StartSession(data) =>
        if SessionsTable !in d.tables then (d, Err(NoSuchTable(SessionsTable)))
        else
          (match InsertSession(d, data, now)
           case Ok(d') => (d', Ok(SessionIdValue(data.sessionId)))
           case Err(e) => (d, Err(e)))
      case EndSession(sid) =>
        if SessionsTable !in d.tables then (d, Err(NoSuchTable(SessionsTable)))
        else (d.(sessions := EndSessionRows(d.sessions, sid, now)), Ok(NoValue))
      case GetActiveSession(userId) =>
        if SessionsTable !in d.tables then (d, Err(NoSuchTable(SessionsTable)))
        else (d, Ok(MaybeSession(ActiveSession(d.sessions, userId))))
      case AddLocation(data) =>
        if LocationsTable !in d.tables then (d, Err(NoSuchTable(LocationsTable)))
        else (InsertLocation(d, data, now), Ok(RowId(d.locationSeq + 1)))
      case GetSessionLocations(sid, limit) =>
        if LocationsTable !in d.tables then (d, Err(NoSuchTable(LocationsTable)))
        else (d, Ok(LocationRows(SessionLocations(d.locations, sid, OrDefault(limit, DefaultLocationLimit)))))
      case GetLocationsByTimeRange(startTime, endTime, sid) =>
        if LocationsTable !in d.tables then (d, Err(NoSuchTable(LocationsTable)))
        else if SessionsTable !in d.tables then (d, Err(NoSuchTable(SessionsTable)))
        else (d, Ok(JoinedRows(LocationsByTimeRange(d.locations, d.sessions, startTime, endTime, sid))))
      case GetLocationsByBounds(b, sid) =>
        if LocationsTable !in d.tables then (d, Err(NoSuchTable(LocationsTable)))
        else (d, Ok(LocationRows(LocationsByBounds(d.locations, b, sid))))
      case SetUserPreferences(userId, p) =>
        if UserPreferencesTable !in d.tables then (d, Err(NoSuchTable(UserPreferencesTable)))
        else (UpsertPrefs(d, userId, p, now), Ok(NoValue))
      case GetUserPreferences(userId) =>
        if UserPreferencesTable !in d.tables then (d, Err(NoSuchTable(UserPreferencesTable)))
        else (d, Ok(MaybePrefs(UserPrefs(d.prefs, userId))))
      case GetLocationsWithNonNullValues(sid) =>
        if LocationsTable !in d.tables then (d, Err(NoSuchTable(LocationsTable)))
        else (d, Ok(LocationRows(LocationsWithNonNullValues(d.locations, sid))))
      case GetCompleteSessions =>
        if SessionsTable !in d.tables then (d, Err(NoSuchTable(SessionsTable)))
        else (d, Ok(SessionRows(CompleteSessions(d.sessions))))
      case CleanOldData(days) =>
        CleanStep(d, OrDefault(days, DefaultRetentionDays), now)
      case GetStats =>
        if SessionsTable !in d.tables then (d, Err(NoSuchTable(SessionsTable)))
        else if LocationsTable !in d.tables then (d, Err(NoSuchTable(LocationsTable)))
        else (d, Ok(StatsValue(StatsOf(d))))
  }

  /**
   * A cleanup that finds `locations` but not `sessions` throws "no such
   * table" after the first DELETE has taken effect: the expired locations are
   * gone and the sessions are untouched.
   */
  lemma CleanStepPartial(d: Disk, retentionDays: int, now: nat)
    requires LocationsTable in d.tables && SessionsTable !in d.tables
    ensures var (d', r) := CleanStep(d, retentionDays, now);
            && r == Err(NoSuchTable(SessionsTable))
            && (forall l :: l in d'.locations <==> l in d.locations && l.timestamp >= Cutoff(now, retentionDays))
            && d'.sessions == d.sessions
  {
    KeptLocationsExact(d.locations, Cutoff(now, retentionDays));
  }

  /** A file that was well formed stays well formed whatever call runs on it. */
  lemma StepPreservesWellFormed(d: Disk, open: bool, op: Op, now: nat)
    requires WellFormed(d)
    ensures WellFormed(Step(d, open, op, now).0)
  {
    if open {
      match op
      case StartSession(data) =>
        if SessionsTable in d.tables && InsertSession(d, data, now).Ok? {
          InsertSessionWellFormed(d, data, now);
        }
      case EndSession(sid) =>
        if SessionsTable in d.tables {
          EndSessionWellFormed(d, sid, now);
        }
      case AddLocation(data) =>
        if LocationsTable in d.tables {
          InsertLocationWellFormed(d, data, now);
        }
      case SetUserPreferences(userId, p) =>
        if UserPreferencesTable in d.tables {
          UpsertPrefsWellFormed(d, userId, p, now);
        }
      case CleanOldData(days) =>
        CleanStepWellFormed(d, OrDefault(days, DefaultRetentionDays), now);
      case _ =>
    }
  }

  lemma InsertSessionWellFormed(d: Disk, data: SessionData, now: nat)
    requires WellFormed(d) && SessionsTable in d.tables && InsertSession(d, data, now).Ok?
    ensures WellFormed(InsertSession(d, data, now).value)
  {
    var d' := InsertSession(d, data, now).value;
    var n := |d.sessions|;
    assert d'.sessions == d.sessions + [d'.sessions[n]];
    forall i, j | 0 <= i < j < |d'.sessions| ensures d'.sessions[i].sessionId != d'.sessions[j].sessionId {
      if j == n {
        assert !SessionIdTaken(d.sessions, data.sessionId);
      }
    }
  }

  lemma EndSessionWellFormed(d: Disk, sid: string, now: nat)
    requires WellFormed(d) && SessionsTable in d.tables
    ensures WellFormed(d.(sessions := EndSessionRows(d.sessions, sid, now)))
  {
    var e := EndSessionRows(d.sessions, sid, now);
    assert forall i :: 0 <= i < |e| ==> SessionKey(e[i]) == SessionKey(d.sessions[i]) && e[i].id == d.sessions[i].id;
    assert DistinctBy(e, SessionKey);
    forall s | s in e ensures s.id <= d.sessionSeq {
      var i :| 0 <= i < |e| && e[i] == s;
      assert d.sessions[i] in d.sessions;
    }
  }


  lemma InsertLocationWellFormed(d: Disk, data: LocationData, now: nat)
    requires WellFormed(d) && LocationsTable in d.tables
    ensures WellFormed(InsertLocation(d, data, now))
  {
    var d' := InsertLocation(d, data, now);
    assert d'.locations == d.locations + [d'.locations[|d.locations|]];
  }

  /** INSERT OR REPLACE keeps `user_id` unique: the conflicting row is gone before the new one is added. */
  lemma UpsertPrefsWellFormed(d: Disk, userId: string, p: UserPreferences, now: nat)
    requires WellFormed(d) && UserPreferencesTable in d.tables
    ensures WellFormed(UpsertPrefs(d, userId, p, now))
  {
    var kept := Filter(d.prefs, (x: PrefsRow) => x.userId != userId);
    FilterKeepsDistinct(d.prefs, (x: PrefsRow) => x.userId != userId, PrefsKey);
    var d' := UpsertPrefs(d, userId, p, now);
    assert d'.prefs == kept + [NewPrefs(d.prefsSeq + 1, userId, p, now)];
    forall i, j | 0 <= i < j < |d'.prefs| ensures d'.prefs[i].userId != d'.prefs[j].userId {
      if j == |kept| { assert kept[i].userId != userId; }
      else { assert d'.prefs[i] == kept[i] && d'.prefs[j] == kept[j]; }
    }
  }

  lemma CleanStepWellFormed(d: Disk, retentionDays: int, now: nat)
    requires WellFormed(d)
    ensures WellFormed(CleanStep(d, retentionDays, now).0)
  {
    var cutoff := Cutoff(now, retentionDays);
    FilterKeepsDistinct(d.sessions, (s: SessionRow) => !SessionExpired(s, cutoff), SessionKey);
  }

  /**
   * After endSession(sid) no active-session query returns that session:
   * every row with that id is inactive and ended now, every other row is unchanged.
   */
  lemma EndedSessionNotActive(ss: seq<SessionRow>, sid: string, now: int, userId: Option<string>)
    ensures var r := ActiveSession(EndSessionRows(ss, sid, now), userId);
            r.Some? ==> r.value.sessionId != sid
    ensures forall s :: s in EndSessionRows(ss, sid, now) && s.sessionId == sid ==> s.isActive == 0 && s.endTime == Some(now)
    ensures forall s :: s in ss && s.sessionId != sid ==> s in EndSessionRows(ss, sid, now)
  {
    var e := EndSessionRows(ss, sid, now);
    forall s | s in e && s.sessionId == sid ensures s.isActive == 0 && s.endTime == Some(now) {
      var i :| 0 <= i < |e| && e[i] == s;
    }
    forall s | s in ss && s.sessionId != sid ensures s in e {
      var i :| 0 <= i < |ss| && ss[i] == s;
      assert e[i] == s;
    }
  }

  /** The new location is returned by a time-range query around its own timestamp. */
  lemma AddedLocationFoundByTime(d: Disk, data: LocationData, now: nat)
    requires LocationsTable in d.tables && SessionsTable in d.tables
    ensures var d' := Step(d, true, AddLocation(data), now).0;
            var t := if data.timestamp.Some? then data.timestamp.value else now;
            var found := LocationsByTimeRange(d'.locations, d'.sessions, t, t, Some(data.sessionId));
            exists i :: 0 <= i < |found| && found[i].location.id == d.locationSeq + 1
  {
    var d' := InsertLocation(d, data, now);
    assert Step(d, true, AddLocation(data), now).0 == d';
    var t := if data.timestamp.Some? then data.timestamp.value else now;
    var l := d'.locations[|d.locations|];
    assert l in d'.locations && t <= l.timestamp <= t && InSession(l, Some(data.sessionId));
    var found := LocationsByTimeRange(d'.locations, d'.sessions, t, t, Some(data.sessionId));
    LocationsByTimeRangeExact(d'.locations, d'.sessions, t, t, Some(data.sessionId));
    var i :| 0 <= i < |found| && found[i].location == l;
    assert found[i].location.id == d.locationSeq + 1;
  }


  /**
   * cleanOldData on a file with both tables: deletes exactly the expired
   * rows of each table, keeps every other row (every active session among
   * them), and reports the two deleted counts.
   */
  lemma CleanOldDataExact(d: Disk, days: Option<int>, now: nat)
    requires LocationsTable in d.tables && SessionsTable in d.tables
    ensures var cutoff := now - OrDefault(days, 30) * 86400;
            var (d', r) := Step(d, true, CleanOldData(days), now);
            && (forall l :: l in d'.locations <==> l in d.locations && l.timestamp >= cutoff)
            && (forall s :: s in d'.sessions <==> s in d.sessions && !(s.isActive == 0 && s.startTime < cutoff))
            && (forall s :: s in d.sessions && s.isActive == 1 ==> s in d'.sessions)
            && r == Ok(Cleanup(CleanupResult(|d.locations| - |d'.locations|, |d.sessions| - |d'.sessions|)))
            && d'.prefs == d.prefs && d'.metadata == d.metadata
  {
    var cutoff := Cutoff(now, OrDefault(days, DefaultRetentionDays));
    KeptLocationsExact(d.locations, cutoff);
    KeptSessionsExact(d.sessions, cutoff);
  }

  /** startSession succeeds exactly when its `session_id` is free, and then returns that id. */
  lemma StartSessionResult(d: Disk, data: SessionData, now: nat)
    requires SessionsTable in d.tables
    ensures var r := Step(d, true, StartSession(data), now).1;
            && (r.Ok? <==> !SessionIdTaken(d.sessions, data.sessionId))
            && (r.Ok? ==> r == Ok(SessionIdValue(data.sessionId)))
  {
  }

  /** addLocation appends one row and returns its id (`lastInsertRowId`). */
  lemma AddLocationResult(d: Disk, data: LocationData, now: nat)
    requires LocationsTable in d.tables
    ensures var (d', r) := Step(d, true, AddLocation(data), now);
            && |d'.locations| == |d.locations| + 1
            && r == Ok(RowId(d'.locations[|d.locations|].id))
  {
  }

  // ---------------------------------------------------------------- queue drain

  /** What running one queued entry does: the file after it and its result. */
  type Stepper<!C> = (Disk, C) -> (Disk, Result<Value, Error>)

  /**
   * processQueuedOperations' loop with its step left open: runs the entries
   * `cs` in submission order and stops after the first one that throws; the
   * rest are never run. Returns the file and the results of the entries that ran.
   */
  function DrainWith<C>(d: Disk, cs: seq<C>, step: Stepper<C>): (r: (Disk, seq<Result<Value, Error>>))
    ensures |r.1| <= |cs|
    ensures cs == [] <==> r.1 == []
    ensures forall k :: 0 <= k < |r.1| - 1 ==> r.1[k].Ok?
    ensures |r.1| < |cs| ==> r.1[|r.1| - 1].Err?
    decreases cs
  {
    if cs == [] then (d, [])
    else
      var (d1, res) := step(d, cs[0]);
      if res.Err? then (d1, [res])
      else
        var (d2, rest) := DrainWith(d1, cs[1..], step);
        (d2, [res] + rest)
  }

  /** The queue drain of the calls `ops`, each run by Step on a handle that is `open`, at time `now`. */
  function Drain(d: Disk, open: bool, ops: seq<Op>, now: nat): (r: (Disk, seq<Result<Value, Error>>))
    ensures ops != [] ==> |r.1| > 0 && r.1[0] == Step(d, open, ops[0], now).1
    ensures !open ==> r == (d, if ops == [] then [] else [Err(NoHandle)])
  {
    DrainWith(d, ops, (x: Disk, o: Op) => Step(x, open, o, now))
  }

  /**
   * A queued entry as the object holds it: a closure that, when run, looks
   * at the handle and the file as they are then.
   */
  type Call = (Disk, bool, nat) -> (Disk, Result<Value, Error>)

  /** The closure executeOperation queues for the call `op`. */
  function CallOf(op: Op): (r: Call)
    ensures forall d: Disk, now: nat :: r(d, false, now) == (d, Err(NoHandle))
  {
    (d: Disk, open: bool, now: nat) => Step(d, open, op, now)
  }

  /** The closures queued for `ops`, in submission order. */
  function CallsOf(ops: seq<Op>): (r: seq<Call>)
    ensures |r| == |ops|
    ensures forall k :: 0 <= k < |ops| ==> r[k] == CallOf(ops[k])
  {
    if ops == [] then [] else CallsOf(ops[..|ops| - 1]) + [CallOf(ops[|ops| - 1])]
  }

  /** The drain of queued closures, each run on a handle that is `open`, at time `now`. */
  function RunCalls(d: Disk, open: bool, calls: seq<Call>, now: nat): (r: (Disk, seq<Result<Value, Error>>))
    ensures calls != [] ==> |r.1| > 0 && r.1[0] == calls[0](d, open, now).1
    ensures calls == [] ==> r == (d, [])
  {
    DrainWith(d, calls, (x: Disk, c: Call) => c(x, open, now))
  }

  /** Draining the closures queued for `ops` is draining `ops`. */
  lemma {:induction false} RunCallsOf(d: Disk, open: bool, ops: seq<Op>, now: nat)
    ensures RunCalls(d, open, CallsOf(ops), now) == Drain(d, open, ops, now)
    decreases ops
  {
    if ops != [] {
      var cs := CallsOf(ops);
      assert cs[1..] == CallsOf(ops[1..]);
      var (d1, res) := Step(d, open, ops[0], now);
      if res.Ok? {
        RunCallsOf(d1, open, ops[1..], now);
      }
    }
  }

  /**
   * A closure that keeps a well-formed file well formed and never touches
   * the metadata or the schema, as the body of every data-access call does.
   */
  ghost predicate Sound(c: Call)
  {
    forall d: Disk, open: bool, now: nat {:trigger c(d, open, now)} ::
      && (WellFormed(d) ==> WellFormed(c(d, open, now).0))
      && c(d, open, now).0.metadata == d.metadata
      && c(d, open, now).0.tables == d.tables
  }

  /** The closure of every data-access call is sound. */
  lemma CallOfSound(op: Op)
    ensures Sound(CallOf(op))
  {
    forall d: Disk, open: bool, now: nat | WellFormed(d)
      ensures WellFormed(CallOf(op)(d, open, now).0)
    {
      StepPreservesWellFormed(d, open, op, now);
    }
  }

  /** Draining sound closures keeps the file well formed and its metadata and schema as they were. */
  lemma {:induction false} RunCallsPreserves(d: Disk, open: bool, calls: seq<Call>, now: nat)
    requires forall k :: 0 <= k < |calls| ==> Sound(calls[k])
    ensures RunCalls(d, open, calls, now).0.metadata == d.metadata
    ensures RunCalls(d, open, calls, now).0.tables == d.tables
    ensures WellFormed(d) ==> WellFormed(RunCalls(d, open, calls, now).0)
    decreases calls
  {
    if calls != [] {
      assert Sound(calls[0]);
      var (d1, r) := calls[0](d, open, now);
      if r.Ok? {
        assert forall k :: 0 <= k < |calls[1..]| ==> calls[1..][k] == calls[k + 1];
        RunCallsPreserves(d1, open, calls[1..], now);
      }
    }
  }

  /** One step of the drain of closures: run the first, stop if it threw, otherwise drain the rest. */
  lemma RunCallsStep(d: Disk, open: bool, calls: seq<Call>, now: nat)
    requires calls != []
    ensures var (d1, r) := calls[0](d, open, now);
            RunCalls(d, open, calls, now)
            == if r.Err? then (d1, [r]) else (RunCalls(d1, open, calls[1..], now).0, [r] + RunCalls(d1, open, calls[1..], now).1)
  {
  }

  /**
   * The loop of processQueuedOperations after `i` entries of `calls` ran,
   * leaving the file `d` and the results `done`: running entry `i` either
   * throws and ends the drain, or extends `done` by its result.
   */
  lemma RunCallsNext(d0: Disk, open: bool, calls: seq<Call>, now: nat, i: nat, d: Disk, done: seq<Result<Value, Error>>)
    requires i < |calls|
    requires RunCalls(d0, open, calls, now) == (RunCalls(d, open, calls[i..], now).0, done + RunCalls(d, open, calls[i..], now).1)
    ensures var (d1, r) := calls[i](d, open, now);
            if r.Err? then RunCalls(d0, open, calls, now) == (d1, done + [r])
            else RunCalls(d0, open, calls, now)
                 == (RunCalls(d1, open, calls[i + 1..], now).0, (done + [r]) + RunCalls(d1, open, calls[i + 1..], now).1)
  {
    RunCallsStep(d, open, calls[i..], now);
    assert calls[i..][0] == calls[i] && calls[i..][1..] == calls[i + 1..];
    var (d1, r) := calls[i](d, open, now);
    var rest := RunCalls(d1, open, calls[i + 1..], now).1;
    assert done + ([r] + rest) == (done + [r]) + rest;
  }

  /** The drain runs the first entry; it stops there if that entry threw. */
  lemma DrainWithFirst<C>(d: Disk, cs: seq<C>, step: Stepper<C>)
    requires cs != []
    ensures var (d1, r) := step(d, cs[0]);
            DrainWith(d, cs, step)
            == if r.Err? then (d1, [r]) else (DrainWith(d1, cs[1..], step).0, [r] + DrainWith(d1, cs[1..], step).1)
  {
  }

  /**
   * Submission order: draining `a + b` runs all of `a` first, and when none
   * of `a` throws, continues with `b` on the file `a` left behind.
   */
  lemma {:induction false} DrainAppend<C>(d: Disk, a: seq<C>, b: seq<C>, step: Stepper<C>)
    requires forall k :: 0 <= k < |DrainWith(d, a, step).1| ==> DrainWith(d, a, step).1[k].Ok?
    ensures var (da, ra) := DrainWith(d, a, step);
            var (db, rb) := DrainWith(da, b, step);
            DrainWith(d, a + b, step) == (db, ra + rb)
    decreases a
  {
    if a == [] {
      assert a + b == b;
      assert [] + DrainWith(d, b, step).1 == DrainWith(d, b, step).1;
    } else {
      var (d1, res) := step(d, a[0]);
      DrainWithFirst(d, a, step);
      DrainWithFirst(d, a + b, step);
      assert (a + b)[0] == a[0] && (a + b)[1..] == a[1..] + b;
      var rt := DrainWith(d1, a[1..], step).1;
      assert forall k :: 0 <= k < |rt| ==> rt[k] == DrainWith(d, a, step).1[k + 1];
      DrainAppend(d1, a[1..], b, step);
      var rb := DrainWith(DrainWith(d1, a[1..], step).0, b, step).1;
      assert [res] + (rt + rb) == ([res] + rt) + rb;
    }
  }


  /** A drain keeps every property of the file that each step keeps. */
  lemma {:induction false} DrainPreserves<C>(d: Disk, cs: seq<C>, step: Stepper<C>, inv: Disk -> bool)
    requires inv(d)
    requires forall x, c :: inv(x) ==> inv(step(x, c).0)
    ensures inv(DrainWith(d, cs, step).0)
    decreases cs
  {
    if cs != [] {
      DrainPreserves(step(d, cs[0]).0, cs[1..], step, inv);
    }
  }

  /** Draining the queue keeps a well-formed file well formed and never touches the metadata. */
  lemma DrainPreservesWellFormed(d: Disk, open: bool, ops: seq<Op>, now: nat)
    requires WellFormed(d)
    ensures WellFormed(Drain(d, open, ops, now).0)
    ensures Drain(d, open, ops, now).0.metadata == d.metadata
    ensures Drain(d, open, ops, now).0.tables == d.tables
  {
    var step := (x: Disk, o: Op) => Step(x, open, o, now);
    forall x, o | WellFormed(x) ensures WellFormed(step(x, o).0) {
      StepPreservesWellFormed(x, open, o, now);
    }
    DrainPreserves(d, ops, step, WellFormed);
    DrainPreserves(d, ops, step, (x: Disk) => x.metadata == d.metadata && x.tables == d.tables);
  }
}

=== FILE: queries.dfy ===
/**
 * The read-only statements of lib/db.ts as functions over the table
 * contents: each is a WHERE filter, an ORDER BY ... DESC, a LIMIT or a COUNT.
 * SQL leaves the order of rows with equal sort keys open, so each ordered
 * result is specified as a sorted permutation of the matching rows.
 */
module Queries {
  import opened Wrappers
  import opened Records
  import opened Seqs
  import opened Tables

  /** The default of `getSessionLocations(sessionId, limit = 1000)`. */
  const DefaultLocationLimit: int := 1000

  /** The default of `cleanOldData(retentionDays = 30)`. */
  const DefaultRetentionDays: int := 30

  function ByStartTime(s: SessionRow): int { s.startTime }

  function ByTimestamp(l: LocationRow): int { l.timestamp }

  // ---------------------------------------------------------------- sessions

  /** `is_active = 1`, and `user_id = userId` only when `userId` is truthy. */
  predicate ActiveFor(s: SessionRow, userId: Option<string>)
  {
    s.isActive == 1 && (Truthy(userId) ==> s.userId == userId)
  }

  /**
   * getActiveSession: `... WHERE is_active = 1 [AND user_id = ?]
   * ORDER BY start_time DESC LIMIT 1`. Null exactly when no row matches;
   * otherwise a matching row that started no earlier than any other match.
   */
  function ActiveSession(ss: seq<SessionRow>, userId: Option<string>): (r: Option<SessionRow>)
    ensures r.None? <==> forall s :: s in ss ==> !ActiveFor(s, userId)
    ensures r.Some? ==> r.value in ss && ActiveFor(r.value, userId)
    ensures r.Some? ==> forall s :: s in ss && ActiveFor(s, userId) ==> s.startTime <= r.value.startTime
  {
    var matching := Filter(ss, (s: SessionRow) => ActiveFor(s, userId));
    var ordered := SortDesc(matching, ByStartTime);
    SortDescMembers(matching, ByStartTime);
    if ordered == [] then None
    else
      assert forall s :: s in ordered ==> ordered[0].startTime >= s.startTime by {
        forall s | s in ordered ensures ordered[0].startTime >= s.startTime {
          var k :| 0 <= k < |ordered| && ordered[k] == s;
          assert k == 0 || ByStartTime(ordered[0]) >= ByStartTime(ordered[k]);
        }
      }
      Some(ordered[0])
  }

  /** Sessions that carry a user, device and app version and have ended. */
  predicate Complete(s: SessionRow)
  {
    s.userId.Some? && s.deviceInfo.Some? && s.appVersion.Some? && s.endTime.Some?
  }

  /**
   * getCompleteSessions: the complete sessions, latest start first.
   */
  function CompleteSessions(ss: seq<SessionRow>): (r: seq<SessionRow>)
    ensures SortedDesc(r, ByStartTime)
    ensures multiset(r) == multiset(Filter(ss, Complete))
  {
    SortDesc(Filter(ss, Complete), ByStartTime)
  }

  // ---------------------------------------------------------------- locations

  /**
   * getSessionLocations: `WHERE session_id = ? ORDER BY timestamp DESC LIMIT ?`.
   * At most `limit` rows (all of them for a negative limit), all of that
   * session, newest first, each a row of the table.
   */
  function SessionLocations(ls: seq<LocationRow>, sessionId: string, limit: int): (r: seq<LocationRow>)
    ensures 0 <= limit ==> |r| <= limit
    ensures |r| <= |ls|
    ensures SortedDesc(r, ByTimestamp)
    ensures forall l :: l in r ==> l in ls && l.sessionId == sessionId
    ensures var matching := Filter(ls, (l: LocationRow) => l.sessionId == sessionId);
            && |r| == (if 0 <= limit < |matching| then limit else |matching|)
            && multiset(r) <= multiset(matching)
            && forall l :: l in multiset(matching) - multiset(r) ==>
                 forall x :: x in r ==> x.timestamp >= l.timestamp
  {
    var matching := Filter(ls, (l: LocationRow) => l.sessionId == sessionId);
    NewestRows(matching, limit);
    Limit(SortDesc(matching, ByTimestamp), limit)
  }

  /** The newest `limit` of the rows `m`: a sorted sub-multiset that leaves out no newer row. */
  lemma NewestRows(m: seq<LocationRow>, limit: int)
    ensures var r := Limit(SortDesc(m, ByTimestamp), limit);
            && |r| == (if 0 <= limit < |m| then limit else |m|)
            && SortedDesc(r, ByTimestamp)
            && (forall l :: l in r ==> l in m)
            && multiset(r) <= multiset(m)
            && forall l :: l in multiset(m) - multiset(r) ==>
                 forall x :: x in r ==> x.timestamp >= l.timestamp
  {
    var ordered := SortDesc(m, ByTimestamp);
    SortDescMembers(m, ByTimestamp);
    LimitKeepsGreatest(ordered, ByTimestamp, limit);
    var r := Limit(ordered, limit);
    assert forall l :: l in r ==> l in ordered;
    forall i, j | 0 <= i < j < |r| ensures ByTimestamp(r[i]) >= ByTimestamp(r[j]) {
      assert r[i] == ordered[i] && r[j] == ordered[j];
    }
  }

  /**
   * Without a binding limit the result holds every row of the session:
   * exactly the matching rows, each as often as in the table.
   */
  lemma SessionLocationsComplete(ls: seq<LocationRow>, sessionId: string, limit: int)
    requires limit < 0 || Count(ls, (l: LocationRow) => l.sessionId == sessionId) <= limit
    ensures multiset(SessionLocations(ls, sessionId, limit)) == multiset(Filter(ls, (l: LocationRow) => l.sessionId == sessionId))
  {
  }

  /** The optional session filter of the range queries, applied only when truthy. */
  predicate InSession(l: LocationRow, sessionId: Option<string>)
  {
    Truthy(sessionId) ==> l.sessionId == sessionId.value
  }

  /** `l.timestamp BETWEEN startTime AND endTime` (both ends included). */
  predicate InTimeRange(l: LocationRow, startTime: int, endTime: int, sessionId: Option<string>)
  {
    startTime <= l.timestamp <= endTime && InSession(l, sessionId)
  }

  /**
   * The `user_id` of the session a location belongs to (LEFT JOIN): that of
   * the first session row with its id, which the UNIQUE `session_id` makes
   * the only one, or null when there is none.
   */
  function SessionUser(ss: seq<SessionRow>, sessionId: string): (u: Option<string>)
    ensures u.Some? ==> exists s :: s in ss && s.sessionId == sessionId && s.userId == u
    ensures (forall s :: s in ss ==> s.sessionId != sessionId) ==> u.None?
    ensures forall i ::
              (0 <= i < |ss| && ss[i].sessionId == sessionId && forall j :: 0 <= j < i ==> ss[j].sessionId != sessionId)
              ==> u == ss[i].userId
  {
    if ss == [] then None
    else if ss[0].sessionId == sessionId then ss[0].userId
    else SessionUser(ss[1..], sessionId)
  }

  /** With `session_id` UNIQUE, the LEFT JOIN gives each location its own session's `user_id`. */
  lemma SessionUserOfRow(ss: seq<SessionRow>, k: int)
    requires DistinctBy(ss, SessionKey)
    requires 0 <= k < |ss|
    ensures SessionUser(ss, ss[k].sessionId) == ss[k].userId
  {
    forall j | 0 <= j < k ensures ss[j].sessionId != ss[k].sessionId {
      assert SessionKey(ss[j]) != SessionKey(ss[k]);
    }
  }

  /** Attaches the owning session's `user_id` to each location row. */
  function JoinUsers(ls: seq<LocationRow>, ss: seq<SessionRow>): (r: seq<JoinedLocation>)
    ensures |r| == |ls|
    ensures forall i :: 0 <= i < |ls| ==> r[i].location == ls[i] && r[i].userId == SessionUser(ss, ls[i].sessionId)
  {
    if ls == [] then []
    else [JoinedLocation(ls[0], SessionUser(ss, ls[0].sessionId))] + JoinUsers(ls[1..], ss)
  }

  /** The location rows of a joined result, in its order. */
  function Located(r: seq<JoinedLocation>): (ls: seq<LocationRow>)
    ensures |ls| == |r|
    ensures forall i :: 0 <= i < |r| ==> ls[i] == r[i].location
  {
    seq(|r|, i requires 0 <= i < |r| => r[i].location)
  }

  /** The LEFT JOIN keeps every location row, in place: stripping the joined users gives back `ls`. */
  lemma JoinKeepsLocations(ls: seq<LocationRow>, ss: seq<SessionRow>)
    ensures Located(JoinUsers(ls, ss)) == ls
  {
    assert forall i :: 0 <= i < |ls| ==> Located(JoinUsers(ls, ss))[i] == ls[i];
  }

  /**
   * getLocationsByTimeRange: `SELECT l.*, s.user_id FROM locations l LEFT JOIN
   * sessions s ... WHERE l.timestamp BETWEEN ? AND ? [AND l.session_id = ?]
   * ORDER BY l.timestamp DESC`.
   */
  function LocationsByTimeRange(ls: seq<LocationRow>, ss: seq<SessionRow>, startTime: int, endTime: int,
                                sessionId: Option<string>): (r: seq<JoinedLocation>)
    ensures |r| == Count(ls, (l: LocationRow) => InTimeRange(l, startTime, endTime, sessionId))
    ensures forall i, j :: 0 <= i < j < |r| ==> r[i].location.timestamp >= r[j].location.timestamp
    ensures forall i :: 0 <= i < |r| ==> r[i].userId == SessionUser(ss, r[i].location.sessionId)
    ensures multiset(Located(r)) == multiset(Filter(ls, (l: LocationRow) => InTimeRange(l, startTime, endTime, sessionId)))
  {
    var matching := Filter(ls, (l: LocationRow) => InTimeRange(l, startTime, endTime, sessionId));
    var ordered := SortDesc(matching, ByTimestamp);
    JoinKeepsLocations(ordered, ss);
    JoinUsers(ordered, ss)
  }

  /** The range query returns exactly the rows inside the closed range (and the session, if given). */
  lemma LocationsByTimeRangeExact(ls: seq<LocationRow>, ss: seq<SessionRow>, startTime: int, endTime: int,
                                  sessionId: Option<string>)
    ensures forall l :: (exists i :: 0 <= i < |LocationsByTimeRange(ls, ss, startTime, endTime, sessionId)|
                                   && LocationsByTimeRange(ls, ss, startTime, endTime, sessionId)[i].location == l)
                        <==> l in ls && startTime <= l.timestamp <= endTime && InSession(l, sessionId)
  {
    var matching := Filter(ls, (l: LocationRow) => InTimeRange(l, startTime, endTime, sessionId));
    var ordered := SortDesc(matching, ByTimestamp);
    SortDescMembers(matching, ByTimestamp);
    var r := LocationsByTimeRange(ls, ss, startTime, endTime, sessionId);
    forall l ensures (exists i :: 0 <= i < |r| && r[i].location == l) <==> l in ordered {
      if l in ordered {
        var i :| 0 <= i < |ordered| && ordered[i] == l;
        assert r[i].location == l;
      }
    }
  }

  /** `latitude BETWEEN south AND north AND longitude BETWEEN west AND east`. */
  predicate InBounds(l: LocationRow, b: GeographicBounds, sessionId: Option<string>)
  {
    b.south <= l.latitude <= b.north && b.west <= l.longitude <= b.east && InSession(l, sessionId)
  }

  /**
   * getLocationsByBounds: exactly the rows inside the box (and the session, if
   * given), newest first.
   */
  function LocationsByBounds(ls: seq<LocationRow>, b: GeographicBounds, sessionId: Option<string>): (r: seq<LocationRow>)
    ensures SortedDesc(r, ByTimestamp)
    ensures multiset(r) == multiset(Filter(ls, (l: LocationRow) => InBounds(l, b, sessionId)))
    ensures forall l :: l in r <==> (l in ls && b.south <= l.latitude <= b.north
                                     && b.west <= l.longitude <= b.east && InSession(l, sessionId))
  {
    var matching := Filter(ls, (l: LocationRow) => InBounds(l, b, sessionId));
    SortDescMembers(matching, ByTimestamp);
    SortDesc(matching, ByTimestamp)
  }

  /**
   * The row filter of getLocationsWithNonNullValues: accuracy, speed, altitude
   * and battery level present; address and city present and not empty.
   */
  predicate HighQuality(l: LocationRow, sessionId: string)
  {
    && l.sessionId == sessionId
    && l.accuracy.Some? && l.speed.Some? && l.altitude.Some?
    && l.address.Some? && l.address.value != ""
    && l.city.Some? && l.city.value != ""
    && l.batteryLevel.Some?
  }

  /** getLocationsWithNonNullValues: the high-quality rows of a session, newest first. */
  function LocationsWithNonNullValues(ls: seq<LocationRow>, sessionId: string): (r: seq<LocationRow>)
    ensures SortedDesc(r, ByTimestamp)
    ensures multiset(r) == multiset(Filter(ls, (l: LocationRow) => HighQuality(l, sessionId)))
    ensures forall l :: l in r <==> l in ls && HighQuality(l, sessionId)
  {
    var matching := Filter(ls, (l: LocationRow) => HighQuality(l, sessionId));
    SortDescMembers(matching, ByTimestamp);
    SortDesc(matching, ByTimestamp)
  }

  // ---------------------------------------------------------------- preferences

  /** getUserPreferences: `SELECT * FROM user_preferences WHERE user_id = ?`, first match or null. */
  function UserPrefs(ps: seq<PrefsRow>, userId: string): (r: Option<PrefsRow>)
    ensures r.None? <==> forall p :: p in ps ==> p.userId != userId
    ensures r.Some? ==> r.value in ps && r.value.userId == userId
  {
    if ps == [] then None
    else if ps[0].userId == userId then Some(ps[0])
    else UserPrefs(ps[1..], userId)
  }

  /** After setUserPreferences, reading that user's preferences gives exactly the row just written. */
  lemma UpsertThenRead(d: Disk, userId: string, p: UserPreferences, now: int)
    ensures UserPrefs(UpsertPrefs(d, userId, p, now).prefs, userId) == Some(NewPrefs(d.prefsSeq + 1, userId, p, now))
  {
    var r := UpsertPrefs(d, userId, p, now);
    var kept := Filter(d.prefs, (x: PrefsRow) => x.userId != userId);
    assert r.prefs == kept + [NewPrefs(d.prefsSeq + 1, userId, p, now)];
    UserPrefsSkip(kept, [NewPrefs(d.prefsSeq + 1, userId, p, now)], userId);
  }

  lemma {:induction false} UserPrefsSkip(a: seq<PrefsRow>, b: seq<PrefsRow>, userId: string)
    requires forall x :: x in a ==> x.userId != userId
    ensures UserPrefs(a + b, userId) == UserPrefs(b, userId)
  {
    if a != [] {
      assert a[0] in a && (a + b)[0] == a[0];
      assert (a + b)[1..] == a[1..] + b;
      UserPrefsSkip(a[1..], b, userId);
      assert UserPrefs(a + b, userId) == UserPrefs((a + b)[1..], userId);
    } else {
      assert a + b == b;
    }
  }

  // ---------------------------------------------------------------- statistics

  /** `is_active = 1`. */
  predicate IsActive(s: SessionRow)
  {
    s.isActive == 1
  }

  /** The three counts of getStats: all sessions, `is_active = 1` sessions, all locations. */
  function StatsOf(d: Disk): (r: Stats)
    ensures r.activeSessions <= r.totalSessions == |d.sessions|
    ensures r.totalLocations == |d.locations|
    ensures r.activeSessions == |set i | 0 <= i < |d.sessions| && IsActive(d.sessions[i])|
    ensures r.activeSessions == 0 <==> forall s :: s in d.sessions ==> !IsActive(s)
  {
    CountPositions(d.sessions, IsActive);
    assert Positions(d.sessions, IsActive) == set i | 0 <= i < |d.sessions| && IsActive(d.sessions[i]);
    Stats(|d.sessions|, Count(d.sessions, IsActive), |d.locations|)
  }
}

=== FILE: records.dfy ===
/** Option and Result, the two failure-carrying wrappers used throughout the model. */
module Wrappers {

  datatype Option<+T> = None | Some(value: T)

  datatype Result<+T, +E> = Ok(value: T) | Err(error: E)

  /** The outcome of a step that returns nothing but may throw. */
  datatype Outcome<+E> = Pass | Fail(error: E)
}

/**
 * The rows, inputs and enumerations of the location-tracking store
 * (lib/db.ts). Times are whole seconds (the source's
 * `Math.floor(Date.now() / 1000)`); REAL columns are Dafny `real`s that are
 * only ever compared.
 */
module Records {
  import opened Wrappers

  /** The five states of the initialization coordinator. */
  datatype InitState = NotInitialized | Initializing | Initialized | Failed | Closed

  /** The text the coordinator stores for a state under `initialization_state`. */
  function StateName(s: InitState): string
  {
    match s
    case NotInitialized => "NOT_INITIALIZED"
    case Initializing => "INITIALIZING"
    case Initialized => "INITIALIZED"
    case Failed => "FAILED"
    case Closed => "CLOSED"
  }

  /** The keys of the `metadata` table. */
  datatype MetaKey = DbInitialized | DbVersion | LastInitTimestamp | InitializationStateKey

  /** The four tables of the schema. */
  datatype TableName = MetadataTable | SessionsTable | LocationsTable | UserPreferencesTable

  /** What the store and the coordinator can throw. */
  datatype Error =
    | NoHandle                                 // "Database not initialized": no open handle
    | NoSuchTable(table: TableName)            // a statement on a table that was never created
    | UniqueViolation(table: TableName)        // UNIQUE constraint failed
    | OpenFailed                               // openDatabaseAsync rejected
    | CreateFailed(table: TableName)           // CREATE TABLE rejected
    | Cancelled                                // "Initialization was cancelled"
    | InitializationFailed(cause: Option<Error>) // "Database initialization failed: ..."
    | DatabaseClosed                           // "Database has been closed"

  /** A row of `sessions`. */
  datatype SessionRow = SessionRow(
    id: nat,
    sessionId: string,
    userId: Option<string>,
    startTime: int,
    endTime: Option<int>,
    deviceInfo: Option<string>,
    appVersion: Option<string>,
    isActive: int,
    createdAt: int,
    updatedAt: int)

  /** A row of `locations`. */
  datatype LocationRow = LocationRow(
    id: nat,
    sessionId: string,
    latitude: real,
    longitude: real,
    altitude: Option<real>,
    accuracy: Option<real>,
    speed: Option<real>,
    heading: Option<real>,
    timestamp: int,
    address: Option<string>,
    city: Option<string>,
    country: Option<string>,
    isSignificant: int,
    batteryLevel: Option<real>,
    createdAt: int)

  /** A location row joined with the `user_id` of its session (null when no session matches). */
  datatype JoinedLocation = JoinedLocation(location: LocationRow, userId: Option<string>)

  /** A row of `user_preferences`. */
  datatype PrefsRow = PrefsRow(
    id: nat,
    userId: string,
    trackingEnabled: int,
    locationAccuracy: string,
    syncInterval: int,
    dataRetentionDays: int,
    privacyMode: int,
    createdAt: int,
    updatedAt: int)

  /** Arguments of `startSession`; an absent optional field is `None`. */
  datatype SessionData = SessionData(
    sessionId: string,
    userId: Option<string>,
    deviceInfo: Option<string>,
    appVersion: Option<string>)

  /** Arguments of `addLocation`; `timestamp` and `isSignificant` have defaults. */
  datatype LocationData = LocationData(
    sessionId: string,
    latitude: real,
    longitude: real,
    altitude: Option<real>,
    accuracy: Option<real>,
    speed: Option<real>,
    heading: Option<real>,
    timestamp: Option<int>,
    address: Option<string>,
    city: Option<string>,
    country: Option<string>,
    isSignificant: Option<int>,
    batteryLevel: Option<real>)

  /** Arguments of `setUserPreferences`; every field has a default. */
  datatype UserPreferences = UserPreferences(
    trackingEnabled: Option<int>,
    locationAccuracy: Option<string>,
    syncInterval: Option<int>,
    dataRetentionDays: Option<int>,
    privacyMode: Option<int>)

  datatype GeographicBounds = GeographicBounds(north: real, south: real, east: real, west: real)

  /** The counts of `getStats` (the page-size figure is not modelled). */
  datatype Stats = Stats(totalSessions: nat, activeSessions: nat, totalLocations: nat)

  datatype CleanupResult = CleanupResult(locationsDeleted: nat, sessionsDeleted: nat)

  /** JavaScript truthiness of an optional string argument: absent and "" are both false. */
  predicate Truthy(s: Option<string>)
  {
    s.Some? && s.value != ""
  }
}

=== FILE: seqs.dfy ===
/**
 * The relational building blocks the SQL statements are stated with:
 * a WHERE filter, a COUNT, an ORDER BY ... DESC and a LIMIT over a
 * sequence of rows.
 */
module Seqs {

  /** The rows of `s` that satisfy `p`, in their original order (WHERE). */
  function Filter<T(!new)>(s: seq<T>, p: T -> bool): (r: seq<T>)
    ensures |r| <= |s|
    ensures forall x :: x in r <==> x in s && p(x)
    ensures forall i :: 0 <= i < |r| ==> p(r[i])
  {
    if s == [] then []
    else
      var front := Filter(s[..|s| - 1], p);
      assert forall x :: x in s <==> x in s[..|s| - 1] || x == s[|s| - 1];
      if p(s[|s| - 1]) then front + [s[|s| - 1]] else front
  }

  /** Filtering a sequence extended by one row extends the result by that row exactly when it matches. */
  lemma FilterSnoc<T(!new)>(s: seq<T>, x: T, p: T -> bool)
    ensures Filter(s + [x], p) == if p(x) then Filter(s, p) + [x] else Filter(s, p)
  {
    assert (s + [x])[..|s + [x]| - 1] == s;
  }

  /** Every row is either kept by `p` or kept by its negation: the two counts add up. */
  lemma {:induction false} FilterPartition<T(!new)>(s: seq<T>, p: T -> bool, q: T -> bool)
    requires forall x :: q(x) == !p(x)
    ensures |Filter(s, p)| + |Filter(s, q)| == |s|
  {
    if s != [] {
      FilterPartition(s[..|s| - 1], p, q);
    }
  }

  /** A filter by a predicate that holds of every row keeps the whole sequence. */
  lemma {:induction false} FilterAll<T(!new)>(s: seq<T>, p: T -> bool)
    requires forall i :: 0 <= i < |s| ==> p(s[i])
    ensures Filter(s, p) == s
  {
    if s != [] {
      FilterAll(s[..|s| - 1], p);
      assert s[..|s| - 1] + [s[|s| - 1]] == s;
    }
  }

  /** No two rows of `s` share a `key` (a UNIQUE column). */
  predicate DistinctBy<T, K(==)>(s: seq<T>, key: T -> K)
  {
    forall i, j :: 0 <= i < j < |s| ==> key(s[i]) != key(s[j])
  }

  /** Deleting rows keeps a UNIQUE column unique. */
  lemma {:induction false} FilterKeepsDistinct<T(!new), K>(s: seq<T>, p: T -> bool, key: T -> K)
    requires DistinctBy(s, key)
    ensures DistinctBy(Filter(s, p), key)
  {
    if s != [] {
      var front, last := s[..|s| - 1], s[|s| - 1];
      FilterKeepsDistinct(front, p, key);
      var fr := Filter(front, p);
      if p(last) {
        assert Filter(s, p) == fr + [last];
        forall i | 0 <= i < |fr| ensures key(fr[i]) != key(last) {
          assert fr[i] in front;
          var k :| 0 <= k < |front| && front[k] == fr[i];
          assert s[k] == fr[i];
        }
      }
    }
  }

  /** COUNT(*) ... WHERE p. */
  function Count<T(!new)>(s: seq<T>, p: T -> bool): (n: nat)
    ensures n <= |s|
    ensures n == 0 <==> forall x :: x in s ==> !p(x)
  {
    var r := Filter(s, p);
    assert |r| > 0 ==> r[0] in r;
    |r|
  }

  /** The positions of `s` whose row satisfies `p`. */
  function Positions<T>(s: seq<T>, p: T -> bool): (r: set<int>)
    ensures forall i :: i in r <==> 0 <= i < |s| && p(s[i])
  {
    set i | 0 <= i < |s| && p(s[i])
  }

  /** Extending a sequence by one row adds that row's position exactly when it matches. */
  lemma PositionsSnoc<T>(s: seq<T>, x: T, p: T -> bool)
    ensures Positions(s + [x], p) == Positions(s, p) + (if p(x) then {|s|} else {})
    ensures |s| !in Positions(s, p)
  {
    var added := if p(x) then {|s|} else {};
    forall i ensures i in Positions(s + [x], p) <==> i in Positions(s, p) + added {
      if 0 <= i < |s| {
        assert (s + [x])[i] == s[i];
      }
    }
  }

  /** The count is the number of positions whose row satisfies `p`. */
  lemma {:induction false} CountPositions<T(!new)>(s: seq<T>, p: T -> bool)
    ensures Count(s, p) == |Positions(s, p)|
    decreases |s|
  {
    if s != [] {
      var front, x := s[..|s| - 1], s[|s| - 1];
      assert s == front + [x];
      FilterSnoc(front, x, p);
      CountPositions(front, p);
      PositionsSnoc(front, x, p);
    }
  }

  /** `s` is ordered by `key`, greatest first (ORDER BY key DESC). */
  predicate SortedDesc<T>(s: seq<T>, key: T -> int)
  {
    forall i, j :: 0 <= i < j < |s| ==> key(s[i]) >= key(s[j])
  }

  /** Places `x` into a sequence already ordered by `key`, greatest first. */
  function InsertDesc<T(!new)>(x: T, s: seq<T>, key: T -> int): (r: seq<T>)
    requires SortedDesc(s, key)
    ensures |r| == |s| + 1
    ensures r[0] == x || (s != [] && r[0] == s[0])
    ensures SortedDesc(r, key)
    ensures multiset(r) == multiset(s) + multiset{x}
  {
    if s == [] || key(x) >= key(s[0]) then [x] + s
    else
      var rest := InsertDesc(x, s[1..], key);
      assert s == [s[0]] + s[1..];
      assert key(rest[0]) <= key(s[0]);
      [s[0]] + rest
  }

  /** Two sequences with the same multiset have the same members. */
  lemma SameMembers<T>(a: seq<T>, b: seq<T>)
    requires multiset(a) == multiset(b)
    ensures forall x :: x in a <==> x in b
  {
    forall x ensures x in a <==> x in b {
      assert x in a <==> x in multiset(a);
      assert x in b <==> x in multiset(b);
    }
  }

  /** The rows of `s` in descending `key` order: a permutation of `s` that is sorted. */
  function SortDesc<T(!new)>(s: seq<T>, key: T -> int): (r: seq<T>)
    ensures SortedDesc(r, key)
    ensures multiset(r) == multiset(s)
    ensures |r| == |s|
  {
    if s == [] then []
    else
      assert s == [s[0]] + s[1..];
      InsertDesc(s[0], SortDesc(s[1..], key), key)
  }

  /** Sorting neither adds nor loses a row. */
  lemma SortDescMembers<T(!new)>(s: seq<T>, key: T -> int)
    ensures forall x :: x in SortDesc(s, key) <==> x in s
  {
    SameMembers(SortDesc(s, key), s);
  }

  /** LIMIT n: the first `n` rows; SQLite reads a negative limit as "no limit". */
  function Limit<T>(s: seq<T>, n: int): (r: seq<T>)
    ensures n < 0 ==> r == s
    ensures 0 <= n ==> |r| == if n < |s| then n else |s|
    ensures r <= s
  {
    if n < 0 || |s| <= n then s else s[..n]
  }

  /**
   * LIMIT over rows in descending order keeps the greatest ones: the rows it
   * drops are each no greater than every row it keeps.
   */
  lemma LimitKeepsGreatest<T>(s: seq<T>, key: T -> int, n: int)
    requires SortedDesc(s, key)
    ensures multiset(Limit(s, n)) <= multiset(s)
    ensures forall x :: x in multiset(s) - multiset(Limit(s, n)) ==>
              forall y :: y in Limit(s, n) ==> key(y) >= key(x)
  {
    var r := Limit(s, n);
    var rest := s[|r|..];
    assert s == r + rest;
    assert multiset(s) == multiset(r) + multiset(rest);
    assert multiset(s) - multiset(r) == multiset(rest);
    forall x, y | x in multiset(rest) && y in r ensures key(y) >= key(x) {
      var j :| 0 <= j < |rest| && rest[j] == x;
      var i :| 0 <= i < |r| && r[i] == y;
      assert s[i] == y && s[|r| + j] == x;
    }
  }

}

=== FILE: tables.dfy ===
/**
 * The database file as in-memory relations: which tables exist, the rows of
 * each table, and SQLite's AUTOINCREMENT counters. The functions here are
 * what each SQL statement of lib/db.ts does to the file; whether a handle is
 * open and whether the table exists is checked by their callers.
 */
module Tables {
  import opened Wrappers
  import opened Records
  import opened Metadata
  import opened Seqs

  /**
   * The contents of LocationTracker.db. `sessionSeq`, `locationSeq` and
   * `prefsSeq` are the `sqlite_sequence` entries: the largest id each
   * AUTOINCREMENT table has ever handed out.
   */
  datatype Disk = Disk(
    tables: set<TableName>,
    metadata: MetaTable,
    sessions: seq<SessionRow>,
    locations: seq<LocationRow>,
    prefs: seq<PrefsRow>,
    sessionSeq: nat,
    locationSeq: nat,
    prefsSeq: nat)

  /** A fresh install: no file contents at all. */
  const EmptyDisk: Disk := Disk({}, map[], [], [], [], 0, 0, 0)

  const AllTables: set<TableName> := {MetadataTable, SessionsTable, LocationsTable, UserPreferencesTable}

  /** The readiness check of the persistent state, on the file's current contents. */
  predicate ReadyDisk(d: Disk)
  {
    Ready(MetadataTable in d.tables, d.metadata)
  }

  /** The UNIQUE column of `sessions`. */
  function SessionKey(s: SessionRow): string { s.sessionId }

  /** The UNIQUE column of `user_preferences`. */
  function PrefsKey(p: PrefsRow): string { p.userId }

  /** The UNIQUE column `sessions.session_id` already holds `sid`. */
  predicate SessionIdTaken(ss: seq<SessionRow>, sid: string)
  {
    exists i :: 0 <= i < |ss| && ss[i].sessionId == sid
  }

  /**
   * What the schema and the AUTOINCREMENT counters guarantee about the file:
   * a table that does not exist has no rows, the UNIQUE columns are unique,
   * every id is at most its counter, and a file that reads as ready has all
   * four tables (readiness is written only after they were all created).
   */
  predicate WellFormed(d: Disk)
  {
    && (MetadataTable !in d.tables ==> d.metadata == map[])
    && (SessionsTable !in d.tables ==> d.sessions == [])
    && (LocationsTable !in d.tables ==> d.locations == [])
    && (UserPreferencesTable !in d.tables ==> d.prefs == [])
    && DistinctBy(d.sessions, SessionKey)
    && DistinctBy(d.prefs, PrefsKey)
    && (forall s :: s in d.sessions ==> s.id <= d.sessionSeq)
    && (forall l :: l in d.locations ==> l.id <= d.locationSeq)
    && (forall p :: p in d.prefs ==> p.id <= d.prefsSeq)
    && (ReadyDisk(d) ==> AllTables <= d.tables)
  }

  lemma EmptyDiskWellFormed()
    ensures WellFormed(EmptyDisk) && !ReadyDisk(EmptyDisk)
  {
  }

  // ---------------------------------------------------------------- schema

  /** `CREATE TABLE IF NOT EXISTS t`: creates an empty table, or leaves an existing one alone. */
  function CreateTable(d: Disk, t: TableName): (r: Disk)
    ensures r.tables == d.tables + {t}
    ensures t in d.tables ==> r == d
    ensures r.metadata == d.metadata && r.sessions == d.sessions && r.locations == d.locations && r.prefs == d.prefs
  {
    d.(tables := d.tables + {t})
  }

  /** The tables createTables has created before it reaches `t` (metadata, sessions, locations, preferences). */
  function TablesBefore(t: TableName): set<TableName>
  {
    match t
    case MetadataTable => {}
    case SessionsTable => {MetadataTable}
    case LocationsTable => {MetadataTable, SessionsTable}
    case UserPreferencesTable => {MetadataTable, SessionsTable, LocationsTable}
  }

  /** Creating a table twice is the same as creating it once. */
  lemma CreateTableIdempotent(d: Disk, t: TableName)
    ensures CreateTable(CreateTable(d, t), t) == CreateTable(d, t)
  {
  }

  // ---------------------------------------------------------------- sessions

  /** The row `INSERT INTO sessions (session_id, user_id, start_time, device_info, app_version)` adds. */
  function NewSession(id: nat, data: SessionData, now: int): SessionRow
  {
    SessionRow(id, data.sessionId, data.userId, now, None, data.deviceInfo, data.appVersion, 1, now, now)
  }

  /**
   * startSession's INSERT: fails on a `session_id` that is already taken,
   * otherwise appends one active row that started now and has no end.
   */
  function InsertSession(d: Disk, data: SessionData, now: int): (r: Result<Disk, Error>)
    ensures r.Err? <==> SessionIdTaken(d.sessions, data.sessionId)
    ensures r.Err? ==> r.error == UniqueViolation(SessionsTable)
    ensures r.Ok? ==> && |r.value.sessions| == |d.sessions| + 1
                      && r.value.sessions[..|d.sessions|] == d.sessions
                      && var s := r.value.sessions[|d.sessions|];
                         s.sessionId == data.sessionId && s.startTime == now && s.endTime == None
                         && s.isActive == 1 && s.id == d.sessionSeq + 1
                         && s.userId == data.userId && s.deviceInfo == data.deviceInfo && s.appVersion == data.appVersion
                         && s.createdAt == now && s.updatedAt == now
    ensures r.Ok? ==> r.value.sessionSeq == d.sessionSeq + 1
                      && r.value.locationSeq == d.locationSeq && r.value.prefsSeq == d.prefsSeq
    ensures r.Ok? ==> r.value.locations == d.locations && r.value.prefs == d.prefs
                      && r.value.metadata == d.metadata && r.value.tables == d.tables
  {
    if SessionIdTaken(d.sessions, data.sessionId) then Err(UniqueViolation(SessionsTable))
    else
      var id := d.sessionSeq + 1;
      Ok(d.(sessions := d.sessions + [NewSession(id, data, now)], sessionSeq := id))
  }

  /** A session row after `SET end_time = now, is_active = 0, updated_at = now`. */
  function Ended(s: SessionRow, now: int): SessionRow
  {
    s.(endTime := Some(now), isActive := 0, updatedAt := now)
  }

  /** endSession's UPDATE ... WHERE session_id = sid, applied to the rows in table order. */
  function EndSessionRows(ss: seq<SessionRow>, sid: string, now: int): (r: seq<SessionRow>)
    ensures |r| == |ss|
    ensures forall i :: 0 <= i < |ss| ==> r[i] == if ss[i].sessionId == sid then Ended(ss[i], now) else ss[i]
  {
    if ss == [] then []
    else
      var last := ss[|ss| - 1];
      EndSessionRows(ss[..|ss| - 1], sid, now) + [if last.sessionId == sid then Ended(last, now) else last]
  }

  // ---------------------------------------------------------------- locations

  /** The row addLocation's INSERT adds: a missing timestamp is now, a missing significance flag is 0. */
  function NewLocation(id: nat, data: LocationData, now: int): LocationRow
  {
    LocationRow(id, data.sessionId, data.latitude, data.longitude, data.altitude, data.accuracy,
      data.speed, data.heading, if data.timestamp.Some? then data.timestamp.value else now,
      data.address, data.city, data.country,
      if data.isSignificant.Some? then data.isSignificant.value else 0,
      data.batteryLevel, now)
  }

  /**
   * addLocation's INSERT. The FOREIGN KEY on `session_id` is not enforced
   * (SQLite leaves foreign keys off unless asked), so the insert always succeeds.
   */
  function InsertLocation(d: Disk, data: LocationData, now: int): (r: Disk)
    ensures |r.locations| == |d.locations| + 1 && r.locations[..|d.locations|] == d.locations
    ensures r.locationSeq == d.locationSeq + 1 && r.sessionSeq == d.sessionSeq && r.prefsSeq == d.prefsSeq
    ensures var l := r.locations[|d.locations|];
            && l.id == r.locationSeq && l.sessionId == data.sessionId
            && l.timestamp == (if data.timestamp.Some? then data.timestamp.value else now)
            && l.isSignificant == (if data.isSignificant.Some? then data.isSignificant.value else 0)
            && l.latitude == data.latitude && l.longitude == data.longitude && l.createdAt == now
            && l.altitude == data.altitude && l.accuracy == data.accuracy && l.speed == data.speed
            && l.heading == data.heading && l.address == data.address && l.city == data.city
            && l.country == data.country && l.batteryLevel == data.batteryLevel
    ensures r.sessions == d.sessions && r.prefs == d.prefs && r.metadata == d.metadata && r.tables == d.tables
  {
    var id := d.locationSeq + 1;
    d.(locations := d.locations + [NewLocation(id, data, now)], locationSeq := id)
  }

  // ---------------------------------------------------------------- preferences

  /** The row setUserPreferences writes, each missing field taking the source's default. */
  function NewPrefs(id: nat, userId: string, p: UserPreferences, now: int): PrefsRow
  {
    PrefsRow(id, userId,
      if p.trackingEnabled.Some? then p.trackingEnabled.value else 1,
      if p.locationAccuracy.Some? then p.locationAccuracy.value else "high",
      if p.syncInterval.Some? then p.syncInterval.value else 300,
      if p.dataRetentionDays.Some? then p.dataRetentionDays.value else 30,
      if p.privacyMode.Some? then p.privacyMode.value else 0,
      now, now)
  }

  /**
   * `INSERT OR REPLACE INTO user_preferences`: the row whose UNIQUE `user_id`
   * conflicts is deleted, and a new row (new id, `created_at` now) is appended.
   */
  function UpsertPrefs(d: Disk, userId: string, p: UserPreferences, now: int): (r: Disk)
    ensures r.prefsSeq == d.prefsSeq + 1 && r.sessionSeq == d.sessionSeq && r.locationSeq == d.locationSeq
    ensures |r.prefs| >= 1 && r.prefs[|r.prefs| - 1] == NewPrefs(r.prefsSeq, userId, p, now)
    ensures forall x :: x in r.prefs ==> x.userId == userId || x in d.prefs
    ensures forall x :: x in d.prefs && x.userId != userId ==> x in r.prefs
    ensures forall x :: x in r.prefs && x.userId == userId ==> x == NewPrefs(r.prefsSeq, userId, p, now)
    ensures r.sessions == d.sessions && r.locations == d.locations && r.metadata == d.metadata && r.tables == d.tables
  {
    var id := d.prefsSeq + 1;
    d.(prefs := Filter(d.prefs, (x: PrefsRow) => x.userId != userId) + [NewPrefs(id, userId, p, now)],
       prefsSeq := id)
  }

  // ---------------------------------------------------------------- retention

  /** `cutoff = now - retentionDays * 24 * 60 * 60`. */
  function Cutoff(now: int, retentionDays: int): int
  {
    now - retentionDays * 86400
  }

  /** Rows `DELETE FROM locations WHERE timestamp < cutoff` removes. */
  predicate LocationExpired(l: LocationRow, cutoff: int)
  {
    l.timestamp < cutoff
  }

  /** Rows `DELETE FROM sessions WHERE is_active = 0 AND start_time < cutoff` removes. */
  predicate SessionExpired(s: SessionRow, cutoff: int)
  {
    s.isActive == 0 && s.startTime < cutoff
  }

  /** The locations that survive the cleanup, in table order. */
  function KeptLocations(ls: seq<LocationRow>, cutoff: int): seq<LocationRow>
  {
    Filter(ls, (l: LocationRow) => !LocationExpired(l, cutoff))
  }

  /** The sessions that survive the cleanup, in table order. */
  function KeptSessions(ss: seq<SessionRow>, cutoff: int): seq<SessionRow>
  {
    Filter(ss, (s: SessionRow) => !SessionExpired(s, cutoff))
  }

  /** The number of location rows the cleanup deletes. */
  function ExpiredLocationCount(ls: seq<LocationRow>, cutoff: int): nat
  {
    Count(ls, (l: LocationRow) => LocationExpired(l, cutoff))
  }

  /** The number of session rows the cleanup deletes. */
  function ExpiredSessionCount(ss: seq<SessionRow>, cutoff: int): nat
  {
    Count(ss, (s: SessionRow) => SessionExpired(s, cutoff))
  }

  /**
   * The cleanup deletes exactly the expired locations: every surviving row
   * is unexpired and was there before, every unexpired row survives, and the
   * deleted count is the difference in size.
   */
  lemma KeptLocationsExact(ls: seq<LocationRow>, cutoff: int)
    ensures forall l :: l in KeptLocations(ls, cutoff) <==> l in ls && l.timestamp >= cutoff
    ensures |KeptLocations(ls, cutoff)| + ExpiredLocationCount(ls, cutoff) == |ls|
  {
    FilterPartition(ls, (l: LocationRow) => !LocationExpired(l, cutoff), (l: LocationRow) => LocationExpired(l, cutoff));
  }

  /**
   * The cleanup deletes exactly the inactive sessions that started before the
   * cutoff: in particular every active session survives, however old.
   */
  lemma KeptSessionsExact(ss: seq<SessionRow>, cutoff: int)
    ensures forall s :: s in KeptSessions(ss, cutoff) <==> s in ss && (s.isActive != 0 || s.startTime >= cutoff)
    ensures forall s :: s in ss && s.isActive == 1 ==> s in KeptSessions(ss, cutoff)
    ensures |KeptSessions(ss, cutoff)| + ExpiredSessionCount(ss, cutoff) == |ss|
  {
    FilterPartition(ss, (s: SessionRow) => !SessionExpired(s, cutoff), (s: SessionRow) => SessionExpired(s, cutoff));
  }
}
